=== FILE: README.md ===
# GhostMaster gameplay rules in Dafny

This project models the gameplay rules of the GhostMaster haunted-house game:
- **Mortals.** The fear meter, the timed status overlays (stun, freeze, slow, possession), and the flee transition with its nearest-exit choice.
- **Ghosts.** The power table and the gate in front of powers, which checks binding, the shared cooldown and the plasm pool.
- **Anchors.** The binding slot ghosts must occupy, and the anchor area abilities.
- **The game manager.** The single global plasm pool, the inclusive range queries, ghost selection and the win check.
- **Missions.** Objectives and their progress, the mission's completion and failure flags, and its score.
- **Abilities.** The stand-alone ability cooldown.

All engine calls are gone:
- The engine clock becomes parameters: `now` stands for `Time.time` and `dt` for `Time.deltaTime`.
- Positions are real coordinates. `Vector3.Distance` is only ever compared with a radius (`<=`) or with another distance (`<`), so the model decides both comparisons exactly with squared distances.
- Fear, timers and speeds are `real`; plasm and scores are `int`.
- Each entity is an immutable record. Each operation is a pure function from the old record (or the whole level) to the new one.

Modules, one per file:

| file | module | models |
|---|---|---|
| options.dfy | `Options` | `Option`, for the engine's null references |
| geometry.dfy | `Geometry` | positions, squared distance, the inclusive radius test |
| plasm.dfy | `Plasm` | the game manager's plasm pool: spend, gain, starting values |
| mortal.dfy | `Mortals` | everything `Mortal.cs` does to a mortal's state |
| dispatch.dfy | `Dispatch` | `GetMortalsInRange`, and delivering a power's hits to all mortals in range or only the first |
| ghost.dfy | `Ghosts` | the ghost record, the power table, the power gate, and what each power does |
| anchor.dfy | `Anchors` | the anchor record, the compatibility table, bind/unbind of the anchor side, the anchor abilities |
| world.dfy | `Game` | the level as the game manager sees it, and every operation involving more than one entity |
| world_props.dfy | `GameProperties` | level-wide properties: the level invariant and the one-sided bond |
| objective.dfy | `Objectives` | `MissionObjective.cs` |
| mission.dfy | `Missions` | `MissionManager.cs` |
| ability.dfy | `Abilities` | `GhostAbility.cs` |

The level invariant `Game.Valid` combines five requirements:
- The pool lies in `[0, max]`.
- Every mortal satisfies `Mortals.Valid`:
  - its fear lies in `[0, maxFear]`;
  - the two flee flags agree;
  - a fleeing mortal has a flee target;
  - a mortal that has left is a fled mortal;
  - a fleeing mortal in play that no stun or freeze holds has its agent running;
  - the waypoint index lies inside the route.
- Every ghost–anchor bond is recorded on both sides, and an anchor that names a ghost is occupied. An anchor may be marked occupied with no ghost, as the level designer can set it; `GameProperties.MarkedOccupiedIsInert` shows such an anchor refuses every bind and never triggers.
- Exactly the selected ghost is marked selected.
- Bind costs are not negative.

`Game.Step` applies any one event of a level, with the two corrections listed under "## Findings": the checked bind (`Game.TryBindToAnchorChecked`) and the corrected flight (`Mortals.BecomeScaredAway`). `GameProperties.StepKeepsValid` proves that every event keeps the invariant in this corrected game; `Mortals.FearFlightStalls` and `GameProperties.OneSidedBindExample` show the code as written breaks it. The events are:
- a mortal's frame;
- a direct scare;
- the end of a fear reaction;
- reaching a waypoint;
- reaching the exit;
- the navigation agent carrying a mortal to a new position;
- firing a power;
- binding;
- unbinding;
- an anchor ability;
- selecting a ghost.

Four rules of the code that a reader might expect otherwise:
- **No plasm regeneration.** There is one global pool in the game manager, and nothing regenerates it. It gains 10 only when a mortal leaves through an exit (`Assets/Scripts/Mortal.cs:520-523`).
- **Fleeing mortals still lose fear.** The frame skips the fear decay only for possessed mortals (`Assets/Scripts/Mortal.cs:140`), so a fleeing mortal's fear keeps decaying.
- **A direct scare is guarded.** It is ignored for a mortal already fled or gone (`Assets/Scripts/Mortal.cs:246`).
- **Bind then unbind is not a full undo.** The plasm paid and the ghost's move to the anchor remain after the unbind; `GameProperties.BindUnbindRoundTrip` states exactly what remains.

## Model

| member | source | states |
|---|---|---|
| Plasm.DefaultStartIsValid | Assets/Scripts/GameManager.cs:9-10 | The default start of 50 plasm under a cap of 100 satisfies the pool invariant. |
| Plasm.Initial | Assets/Scripts/GameManager.cs:50 | The level starts with the configured starting plasm under the configured cap. That is valid whenever the start lies between 0 and the cap. |
| Plasm.SpendPlasm | Assets/Scripts/GameManager.cs:89-98 | The debit happens iff the pool holds at least the amount. It then removes exactly that amount; a refusal leaves the pool untouched. |
| Plasm.GainPlasm | Assets/Scripts/GameManager.cs:100-104 | The credit saturates at the cap. The result is the old amount plus the credit, or the cap, and never more than either. |
| Plasm.SpendKeepsValid | Assets/Scripts/GameManager.cs:89-98 | Spending a non-negative amount keeps `0 <= current <= max`. |
| Plasm.GainKeepsValid | Assets/Scripts/GameManager.cs:100-104 | Gaining a non-negative amount keeps `0 <= current <= max`. |
| Plasm.SpendThenGainRestores | Assets/Scripts/GameManager.cs:89-104 | Gaining back what a successful spend took restores the pool exactly (the inverse pair). |
| Mortals.MortalTuning | Assets/Scripts/Mortal.cs:93-127 | For every mortal type, 0 < scare threshold < max fear, and the flee speed and decay rate are positive. Gives the Child (40/60) and Adult (80/100) thresholds. |
| Mortals.WalkSpeed | Assets/Scripts/Mortal.cs:129 | The walking speed is positive and strictly below the flee speed. |
| Mortals.FearMultiplier | Assets/Scripts/Mortal.cs:213-226 | Incoming fear is amplified for children and believers, damped for skeptics, and unchanged for adults and the elderly. |
| Mortals.Initialize | Assets/Scripts/Mortal.cs:71-91 | A set-up mortal has the given type, position, base speed and route, starts at waypoint 0, and is valid, calm, active and wandering with its agent running, at walking speed, with no overlay applied. |
| Mortals.TakeFear | Assets/Scripts/Mortal.cs:209-241 | A fled or inactive mortal is unchanged. Otherwise the fear is the scaled sum, capped at max fear, and the only other effects are halting the agent and interrupting the wander. |
| Mortals.TakeFearKeepsValid | Assets/Scripts/Mortal.cs:228 | Non-negative fear keeps the meter in `[0, maxFear]` and never lowers it. |
| Mortals.Decay | Assets/Scripts/Mortal.cs:140-144 | Possession leaves the fear unchanged. Otherwise, for a forward step, fear falls by rate·dt but never below zero, and nothing else changes. |
| Mortals.DecayKeepsValid | Assets/Scripts/Mortal.cs:140-144 | The decay keeps the mortal invariant. |
| Mortals.NearestExit | Assets/Scripts/Mortal.cs:351-365 | The chosen exit is at minimal distance among all exits, and every earlier exit is strictly farther, so ties go to the lowest index. |
| Mortals.BecomeScaredAwayAsWritten | Assets/Scripts/Mortal.cs:338-376 | As written: both flee flags are set, the speed becomes the flee speed and the wander stops. The target is a nearest exit, or the away-from-viewer fallback when there is no exit. The agent's stop flag is left as it was. |
| Mortals.BecomeScaredAway | Assets/Scripts/Mortal.cs:338-376 | Corrected: the same flight, and the agent is halted afterwards iff a stun or freeze holds the mortal. Nothing else changes. |
| Mortals.FearFlightStalls | Assets/Scripts/Mortal.cs:338-407 | As written, a child hit by 30 fear flees on its next frame with its agent still halted by the fear reaction. The reaction's end then leaves it halted because it has fled, and the halted fugitive breaks the mortal invariant. |
| Mortals.TriggerFleeState | Assets/Scripts/Mortal.cs:244-250 | A direct scare does nothing to a fled or inactive mortal. Otherwise the mortal flees whatever its fear. Fear and activity are untouched. It uses the corrected flight (`Mortals.BecomeScaredAway`), which releases the agent. |
| Mortals.TriggerFleeStateKeepsValid | Assets/Scripts/Mortal.cs:244-250 | A direct scare keeps the mortal invariant, with the corrected flight (`Mortals.BecomeScaredAway`). |
| Mortals.Stun | Assets/Scripts/Mortal.cs:264-274 | The stun timer is set to the duration, overwriting any running one, and the agent halts. Fear, flee state, activity, position, speed and the other overlays are unchanged. |
| Mortals.Possess | Assets/Scripts/Mortal.cs:276-294 | The possession timer is set to the duration and the wander stops. Fear, flee state, activity, position, the agent and the other overlays are unchanged. |
| Mortals.Freeze | Assets/Scripts/Mortal.cs:319-329 | The freeze timer is set to the duration and the agent halts. Fear, flee state, activity, position, speed and the other overlays are unchanged. |
| Mortals.Slow | Assets/Scripts/Mortal.cs:331-336 | The slow timer and multiplier are overwritten, and the speed becomes the base speed times the multiplier. Fear, flee state, activity, position, the agent and the other overlays are unchanged. |
| Mortals.StunDoesNotStack | Assets/Scripts/Mortal.cs:264-268 | A second stun overwrites the first: the result equals the second stun alone. |
| Mortals.FreezeDoesNotStack | Assets/Scripts/Mortal.cs:319-323 | A second freeze overwrites the first. |
| Mortals.PossessDoesNotStack | Assets/Scripts/Mortal.cs:276-279 | A second possession overwrites the first. |
| Mortals.SlowDoesNotStack | Assets/Scripts/Mortal.cs:331-336 | A second slow overwrites both multiplier and duration. The speed is taken from the captured base speed, never compounded. |
| Mortals.EndPossession | Assets/Scripts/Mortal.cs:296-317 | Possession ends. The wander resumes exactly when the mortal has not fled (or was already wandering). |
| Mortals.TickStun | Assets/Scripts/Mortal.cs:156-164 | A running stun loses dt and lifts exactly when its timer reaches zero or below, releasing the agent. |
| Mortals.TickPossession | Assets/Scripts/Mortal.cs:167-174 | A running possession loses dt and ends exactly when its timer reaches zero or below. |
| Mortals.TickFreeze | Assets/Scripts/Mortal.cs:177-189 | A running freeze loses dt and lifts exactly when its timer reaches zero or below, releasing the agent. |
| Mortals.TickSlow | Assets/Scripts/Mortal.cs:192-200 | A running slow loses dt. On expiry the speed goes back to the base speed and the multiplier to 1. |
| Mortals.UpdateStatusEffects | Assets/Scripts/Mortal.cs:153-201 | Per overlay, each countdown runs only while its overlay is on, and each lifts exactly at zero or below. The agent moves again when a stun or freeze lifts. No fear, flee or position field changes. |
| Mortals.PossessionExpiry | Assets/Scripts/Mortal.cs:167-174 | An expiring possession gives control back to the wander exactly when the mortal has not fled. |
| Mortals.FreezeExpires | Assets/Scripts/Mortal.cs:177-189 | A frame at least as long as the freeze lifts it, and the countdowns release the agent. After the whole frame the agent is halted only if still stunned. |
| Mortals.Update | Assets/Scripts/Mortal.cs:132-151 | An inactive mortal is untouched. After a frame of an active mortal, fear at or above the threshold means it is scared away. A new flight happens only at that fear. The flee flags and target are never reset. The fear and the four overlays' timers are exactly those of this frame's countdowns followed by the decay. It uses the corrected flight (`Mortals.BecomeScaredAway`), which releases the agent. |
| Mortals.FrameDecay | Assets/Scripts/Mortal.cs:136-144 | Within a frame the countdowns run before the decay. A possession still running after the frame holds the fear; one that ends in this frame, or none at all, lets the fear fall by rate·dt, never below zero. |
| Mortals.UpdateKeepsValid | Assets/Scripts/Mortal.cs:132-151 | A forward frame keeps the mortal invariant, with the corrected flight (`Mortals.BecomeScaredAway`). |
| Mortals.ChildScenario | Assets/Scripts/Mortal.cs:217-228 | A fresh child hit by 30 fear reaches 45. Any next frame of at most 5/3 seconds keeps the decayed fear at 40 or more and makes it flee (threshold 40). With the corrected flight (`Mortals.BecomeScaredAway`) it is walking; as written it stays halted (`Mortals.FearFlightStalls`). |
| Mortals.FearReactionEnds | Assets/Scripts/Mortal.cs:392-417 | After the pause, movement and wander resume unless the mortal is stunned, frozen or scared away. In those cases nothing changes. |
| Mortals.WaypointReached | Assets/Scripts/Mortal.cs:419-446 | The index advances only while the waypoint walk runs. It moves to the next waypoint, wrapping to 0 after the last. |
| Mortals.WaypointReachedKeepsValid | Assets/Scripts/Mortal.cs:444 | The waypoint index stays inside `[0, waypoints.Length)`. |
| Mortals.Depart | Assets/Scripts/Mortal.cs:514-516 | A mortal reaching its exit leaves play and nothing else about it changes. A valid mortal at its exit leaves as a valid, fled mortal. |
| Mortals.ApplyAction | Assets/Scripts/Mortal.cs:209-336 | A single hit never moves the mortal, changes its flight or activity. Only a scare touches the fear; it stays within the maximum and a non-negative scare never lowers it. |
| Mortals.ApplyActions | Assets/Scripts/Mortal.cs:209-336 | A run of hits keeps the same frame. Under non-negative scares the fear only rises, up to the maximum. |
| Mortals.ApplyActionKeepsValid | Assets/Scripts/Mortal.cs:209-336 | A single hit (non-negative fear or any overlay) keeps the invariant and never moves or revives the mortal. |
| Mortals.ApplyActionsKeepsValid | Assets/Scripts/Mortal.cs:209-336 | A sequence of such hits keeps the invariant and leaves activity, position and the fled flag unchanged. |
| Dispatch.InRangeIndices | Assets/Scripts/GameManager.cs:127-140 | The filter returns exactly the indices within the radius (inclusive), strictly increasing, so in list order and without repeats. |
| Dispatch.MortalsInRange | Assets/Scripts/GameManager.cs:127-140 | A mortal is in the result iff its distance to the centre is at most the range, and the result keeps list order. |
| Dispatch.TargetsAreHits | Assets/Scripts/Ghost.cs:291-298 | The targets are every mortal in range, or for first-only powers exactly the first mortal in range. |
| Dispatch.ApplyEffect | Assets/Scripts/Ghost.cs:241-337 | Every mortal in range receives the hits (or only the first in range, for first-only powers). Every other mortal is unchanged. |
| Dispatch.ApplyEffectKeepsValid | Assets/Scripts/Ghost.cs:241-337 | Non-negative hits keep every mortal valid and never change activity, position or the fled flag. |
| Ghosts.GhostTuning | Assets/Scripts/Ghost.cs:68-98 | For every ghost type the secondary power costs strictly more than the primary, and the range is positive. |
| Ghosts.Initialize | Assets/Scripts/Ghost.cs:48-66 | A placed ghost has the given type, position, bind cost and cooldown. It is unbound and unselected, and has never used a power. |
| Ghosts.CanUsePower | Assets/Scripts/Ghost.cs:217-238 | The gate opens iff the ghost is bound, the cooldown has fully passed since the shared timestamp, and the pool holds at least the cost. |
| Ghosts.GateStaysOpen | Assets/Scripts/Ghost.cs:217-238 | A gate open at some time with some plasm stays open at any later time with at least as much plasm. An unbound ghost never passes. |
| Ghosts.PowerCost | Assets/Scripts/Ghost.cs:155-192 | Every power costs something, and the secondary costs more than the primary. |
| Ghosts.PowerEffect | Assets/Scripts/Ghost.cs:241-337 | Only the Wraith and Phantom secondaries hit just the first mortal in range. Only the Poltergeist secondary reaches 1.5 × the range. Every hit is non-negative. |
| Anchors.AnchorTuning | Assets/Scripts/Anchor.cs:69-98 | Every anchor type's power bonus is at least 1. Only the generic anchor has an empty compatibility list, and its bonus is exactly 1. |
| Anchors.CanBindGhost | Assets/Scripts/Anchor.cs:100-127 | A ghost type may bind iff the anchor is free and, when the anchor enforces a non-empty compatibility list, the type is on it. |
| Anchors.OccupiedRefuses | Assets/Scripts/Anchor.cs:100-105 | An occupied anchor refuses every ghost type. |
| Anchors.CompatibilityRule | Assets/Scripts/Anchor.cs:107-127 | A free anchor checks the type only when it enforces a non-empty list. It then accepts exactly the listed types. |
| Anchors.BindGhost | Assets/Scripts/Anchor.cs:130-151 | The bind succeeds iff `CanBindGhost` holds. It then records the ghost and occupies the slot; a refusal changes nothing. |
| Anchors.UnbindGhost | Assets/Scripts/Anchor.cs:153-171 | Afterwards the anchor is free and names no ghost, whatever it held. |
| Anchors.UnbindIdempotent | Assets/Scripts/Anchor.cs:153-171 | Releasing twice equals releasing once. |
| Anchors.BindUnbindRoundTrip | Assets/Scripts/Anchor.cs:137-161 | A successful bind of a free anchor followed by a release gives back the very same anchor. |
| Anchors.AnchorEffect | Assets/Scripts/Anchor.cs:262-321 | Every non-generic anchor has a non-negative area effect with a positive radius that hits everyone in range. The generic anchor has none. |
| Anchors.TriggerAnchorAbility | Assets/Scripts/Anchor.cs:238-260 | Without an occupant, or on a generic anchor, the mortals are unchanged. Otherwise the anchor's effect is applied around it. |
| Game.BindingIsExclusive | Assets/Scripts/Anchor.cs:137-138 | In a consistent level no two ghosts are bound to the same anchor. |
| Game.AnchorsInRange | Assets/Scripts/GameManager.cs:142-155 | An anchor is in the result iff it is within the range (inclusive), and the result keeps list order. |
| Game.CheckWinCondition | Assets/Scripts/GameManager.cs:157-175 | The scan reports a win iff every mortal is inactive or scared away, which is vacuously true with no mortals. |
| Game.SelectGhost | Assets/Scripts/GameManager.cs:106-120 | The new choice is marked and the previous one unmarked. No other ghost field changes, and the selection invariant is kept. |
| Game.TryBindToAnchor | Assets/Scripts/Ghost.cs:116-140 | As written: the bind succeeds iff the ghost is free, the anchor unoccupied and the pool sufficient. On success it pays and records the anchor on the ghost; the anchor side changes only when the anchor accepts the type. |
| Game.TryBindToAnchorChecked | Assets/Scripts/Ghost.cs:116-140 | Corrected: the bind succeeds iff the ghost is free, the anchor accepts it and the pool is sufficient. Both sides then record the bond; a refusal changes nothing. |
| Game.Unbind | Assets/Scripts/Ghost.cs:142-151 | An unbound ghost changes nothing. Otherwise both the ghost side and the anchor side are cleared, and the pool is untouched. |
| Game.ActivatePower | Assets/Scripts/Ghost.cs:153-238 | The power fires iff the ghost is bound, the cooldown has elapsed and the pool covers the cost. Then exactly the cost is debited, the shared timestamp becomes `now` and the effect is applied. A refusal changes nothing. |
| Game.TriggerAnchor | Assets/Scripts/Anchor.cs:238-260 | An anchor without an occupant, or a generic one, leaves the level unchanged. Otherwise the anchor's area effect is applied around it to the mortals, and nothing else changes. |
| Game.MortalFrame | Assets/Scripts/Mortal.cs:132-151 | The level-complete notification is raised iff this frame scared the mortal away and the level is now cleared. It uses the corrected flight (`Mortals.BecomeScaredAway`), which releases the agent. |
| Game.ForceFlee | Assets/Scripts/Mortal.cs:244-250 | A direct scare of an active, unscared mortal raises level complete iff the level is then cleared. It uses the corrected flight (`Mortals.BecomeScaredAway`), which releases the agent. |
| Game.MoveMortal | Assets/Scripts/Mortal.cs:506-512 | The agent moves a mortal only when it is in play and its agent is not halted. Only that mortal's position changes. |
| Game.ExitReached | Assets/Scripts/Mortal.cs:514-523 | Before the exit is reached nothing changes. At the exit the mortal leaves play and the pool gains the reward, capped at the maximum. |
| GameProperties.OneSidedBind | Assets/Scripts/Ghost.cs:130-136 | The unchecked bind on a free anchor that rejects the type still succeeds and takes the bind cost. The ghost records the anchor, but the anchor stays unoccupied: the bond is one-sided. |
| GameProperties.OneSidedBindExample | Assets/Scripts/Ghost.cs:136 | A concrete valid level: a Banshee binding to an enforcing Furniture anchor pays 10 plasm and breaks the bond invariant. The checked bind refuses and changes nothing. |
| GameProperties.CheckedBindKeepsValid | Assets/Scripts/Ghost.cs:116-140 | The corrected bind keeps the level invariant, including the two-sided bond. |
| GameProperties.UnbindKeepsValid | Assets/Scripts/Ghost.cs:142-151 | Unbinding keeps the level invariant. |
| GameProperties.BindUnbindRoundTrip | Assets/Scripts/Ghost.cs:131-148 | A bind followed by an unbind leaves the anchors and the bond exactly as before. Only the paid plasm and the ghost's move remain. |
| GameProperties.BindScenario | Assets/Scripts/Ghost.cs:124-136 | With 50 plasm and a bind cost of 10 on a free, accepting anchor, the bind leaves 40 and both sides bound. |
| GameProperties.SharedCooldown | Assets/Scripts/Ghost.cs:225 | Once either power has fired at t, neither fires again before t plus the cooldown, and the refusal changes nothing. |
| GameProperties.ActivateKeepsValid | Assets/Scripts/Ghost.cs:153-215 | Firing a power keeps the level invariant. |
| GameProperties.TriggerAnchorKeepsValid | Assets/Scripts/Anchor.cs:238-321 | An anchor ability keeps the level invariant. |
| GameProperties.MortalFrameKeepsValid | Assets/Scripts/Mortal.cs:132-151 | A mortal's forward frame keeps the level invariant, with the corrected flight (`Mortals.BecomeScaredAway`). |
| GameProperties.ExitReachedKeepsValid | Assets/Scripts/Mortal.cs:514-523 | Reaching the exit keeps the level invariant. Below the cap the pool gains exactly 10. |
| Game.Step | Assets/Scripts/GameManager.cs:188-233 | Any one event keeps the number of mortals and anchors, the exits and the set of ghosts. Selection, binding and the powers are the player's inputs; the mortal events come from the mortals' own frames and coroutines. |
| GameProperties.StepKeepsValid | Assets/Scripts/Ghost.cs:116-151 | Every event of a level keeps the level invariant, the two-sided bond included, once binding checks compatibility (`Game.TryBindToAnchorChecked`) and the flight releases the agent (`Mortals.BecomeScaredAway`). |
| GameProperties.FlightReachesExit | Assets/Scripts/Mortal.cs:506-523 | In a valid level, a mortal fleeing to an exit that no stun or freeze holds can be carried there and leave. It departs as a fled mortal, the pool gains the reward capped at the maximum, and the level stays valid. |
| GameProperties.MarkedOccupiedIsInert | Assets/Scripts/Anchor.cs:100-105 | An anchor marked occupied with no ghost, in a valid level, makes both binds refuse without charge, and its ability changes nothing. |
| GameProperties.FledAndGoneAreForever | Assets/Scripts/Mortal.cs:338-341 | No event resets a mortal's fled flag or brings a departed mortal back. |
| Objectives.CheckCompletion | Assets/Scripts/MissionObjective.cs:41-47 | The objective becomes completed once its value reaches the target. The notification is raised iff this call completes it. |
| Objectives.SetProgress | Assets/Scripts/MissionObjective.cs:35-39 | The value becomes the given value capped at the target. Completion follows iff the cap is reached, and the notification only on the completing call. |
| Objectives.UpdateProgress | Assets/Scripts/MissionObjective.cs:29-33 | The value grows by the delta, capped at the target, so it never exceeds the target. Completion and the notification follow as for a set. |
| Objectives.ProgressPercentage | Assets/Scripts/MissionObjective.cs:50-53 | 0 for a non-positive target. Otherwise the ratio with `ratio × target = value`, inside [0, 1] when the value is. |
| Objectives.CompletionIsFinal | Assets/Scripts/MissionObjective.cs:43-46 | A completed objective stays completed under any update and never raises its notification again. |
| Objectives.NotifiedAtMostOnce | Assets/Scripts/MissionObjective.cs:43-46 | Over any run of updates the completion notification is raised at most once, and never for an objective already completed. |
| Missions.IsMissionActive | Assets/Scripts/MissionManager.cs:144-147 | A mission runs iff it is neither completed nor failed. |
| Missions.CountCompleted | Assets/Scripts/MissionManager.cs:133 | The count is at most the number of objectives. It is 0 iff none is completed, and full iff all are. |
| Missions.CountOptionalCompleted | Assets/Scripts/MissionManager.cs:134 | The count never exceeds the completed count, and is 0 iff no optional objective is completed. |
| Missions.Score | Assets/Scripts/MissionManager.cs:130-137 | The score lies between 1000 and 1000 + 750 per objective. It is exactly 1000 iff nothing is completed, and 1000 + 500 per objective when all are completed and mandatory. `Missions.CompleteOneMore` fixes the weights for every mixed mission. |
| Missions.CompleteOneMore | Assets/Scripts/MissionManager.cs:130-137 | Completing one more objective, all else equal, adds exactly 1 to the completed count, 1 to the optional count iff it is optional, and so exactly 500 to the score, or 750 if optional. |
| Missions.ScoreMonotone | Assets/Scripts/MissionManager.cs:130-137 | Completing more objectives never lowers either count or the score. |
| Missions.CompleteMission | Assets/Scripts/MissionManager.cs:95-112 | Afterwards the mission is completed. A score, at least 1000, is announced iff it was not completed before; a repeat call changes nothing. The failed flag is not consulted. |
| Missions.CompleteIsIdempotent | Assets/Scripts/MissionManager.cs:97 | Completing twice announces once, and the second call changes nothing. |
| Missions.FailMission | Assets/Scripts/MissionManager.cs:114-128 | The mission ends failed unless it was completed. The call changes something iff the mission was active. |
| Missions.FailThenComplete | Assets/Scripts/MissionManager.cs:95-118 | Failing and then completing a running mission leaves both flags set and still announces a score. Completing first blocks the failure. |
| Missions.OnObjectiveCompleted | Assets/Scripts/MissionManager.cs:83-93 | The handler completes the mission iff every mandatory objective is completed, which is vacuously so when all are optional. |
| Missions.ScareCount | Assets/Scripts/MissionManager.cs:63-68 | Counts the mortals still in play with fear above 80 or fled. It is full iff all count and 0 iff none does. |
| Missions.DepartedNotCounted | Assets/Scripts/MissionManager.cs:65-66 | A counted mortal that leaves through its exit stops being counted, so the count drops. |
| Missions.RoundToInt | Assets/Scripts/MissionManager.cs:79 | The rounded time is within one half of the time, and an exact half goes to the even neighbour. |
| Missions.DepartedNotCountedAt | Assets/Scripts/MissionManager.cs:63-68 | Removing any one counted mortal from play lowers the scare count by exactly one. |
| Missions.Advance | Assets/Scripts/MissionManager.cs:48-59 | A scare-all objective takes the scare count and a survive-time objective the rounded seconds, each capped at the target, and completes once that reaches the target. Every other kind is returned unchanged and reports nothing. An objective reports completion iff it was open and is now completed. |
| Missions.VisitKeepsPassInv | Assets/Scripts/MissionManager.cs:44-60 | Visiting one more objective keeps the invariant of the progress pass. |
| Missions.UpdateObjectiveProgress | Assets/Scripts/MissionManager.cs:40-60 | A finished mission is left alone, and completed objectives are skipped. Scare-all objectives take the scare count and survive-time objectives the rounded time. The mission completes iff the pass completes an objective and all mandatory ones are then done. The announced score is at most once, at least 1000 and at most the final score. |
| Abilities.CanUse | Assets/Scripts/GhostAbility.cs:17-20 | The ability is usable iff the cooldown since the last use has fully passed. |
| Abilities.Use | Assets/Scripts/GhostAbility.cs:22-25 | Using the ability restarts its clock at `now` and keeps its cost and cooldown. Right after the use, the ability is usable again iff its cooldown is not positive, and the remaining time is the full (non-negative) cooldown. |
| Abilities.CooldownRemaining | Assets/Scripts/GhostAbility.cs:27-30 | The remaining time is never negative, and at most the cooldown once `now` has passed the last use. It is 0 iff the ability can be used. Otherwise it is exactly the time to the end of the cooldown. |
| Abilities.UseBlocksUntilCooldown | Assets/Scripts/GhostAbility.cs:17-25 | Right after a use the ability is blocked iff its cooldown is positive. |
| Abilities.UsableAgainAfterCooldown | Assets/Scripts/GhostAbility.cs:17-25 | After a use at t, the ability is usable at a later time iff at least the cooldown has passed. |

## Left out

- **Coroutines and navigation.** The wander, random wander, possession and flight coroutines drive a NavMesh agent with random targets and timed waits. Each appears only through the event that ends it or the state it sets:
  - the end of the fear reaction (`Mortals.FearReactionEnds`);
  - reaching a waypoint (`Mortals.WaypointReached`);
  - reaching the exit (`Game.ExitReached`).

  Movement is the event `Moved`, which sets a mortal's position wherever the agent carries it, provided the agent is running; the path and speed are not modelled.
- **The waypoint walk's guard.** `Mortals.WaypointReached` advances the index only while the walk is unhindered and not fled. In the code the wander loop checks stun and freeze at the top of each round, and all four hindrances only while walking towards a waypoint (`Assets/Scripts/Mortal.cs:423-442`); nothing is checked during the wait at the waypoint. A loop started by an earlier fear reaction or possession end and never stopped (`Assets/Scripts/Mortal.cs:232-235`, `410`) could still advance the index during its wait at a waypoint. The model does not advance it then.
- **The no-exit flee fallback.** The flee target used when there are no exits is computed from the camera position. It is kept as the opaque target `AwayFromViewer`.
- **Floating point and integer width.** Fear, timers and speeds are exact reals, without IEEE rounding. Plasm, objective values and scores are unbounded integers, so the 32-bit wrap-around of the source is not modelled. The game's values are far from that limit.
- **Time scale, input and rendering.** The game manager's time scale is left out. So is its mouse and hotkey handling, which only calls `SelectGhost`, `TryBindToAnchor` and the powers that are modelled. Colours, animations, particles, indicators, sounds and log messages are also left out.
- **Engine notifications.** The plasm-changed, ghost-selected and level-complete callbacks are left out. The level-complete callback survives as the boolean returned by `Game.MortalFrame` and `Game.ForceFlee`, and the mission score as the announced score.
- **The collect-plasm objective.** It reads a ghost plasm accessor that does not exist in the ghost class, so the progress pass treats it like the other kinds it does not handle.
- **Mission hand-off calls.** The calls from completion and failure to game manager members that do not exist are left out, and so are the UI calls.
- **The anchor power bonus.** It is set by the type table but never read by any power, so it has no effect.
- **`AddFear`.** It is the same operation as `TakeFear`.
- **The scary-object trigger.** This physics trigger scares for 15 points; a caller can apply `TakeFear(m, 15.0)` directly.
- **Effect classes, the event bus, the plasm collector, the UI, camera, sound and level-loading scripts.** These are not part of this model.
- Mortals.TakeFear: the cap and no-decrease properties hold for non-negative amounts; a negative amount, which no caller passes, is modelled as written but not bounded below.
- Mortals.Decay: the bounds are stated for a non-negative frame time; a negative `dt` is modelled as written.

## Findings

| source | as written | input that shows it | evidently intended | confidence | as-written member | corrected member |
|---|---|---|---|---|---|---|
| Assets/Scripts/Ghost.cs:130-136 | The ghost pays the bind cost and records the anchor, then ignores the result of the anchor's own bind. | A Banshee with 50 plasm and a bind cost of 10 binds to a free Furniture anchor whose compatibility list (Poltergeist only) is enforced. The anchor refuses. The bind reports success, 10 plasm is gone, and the ghost is bound to an anchor that stays unoccupied and names no ghost. | Check the anchor's compatibility before paying, and bind only when both sides record the bond. | not executed | Game.TryBindToAnchor (shown by GameProperties.OneSidedBind and GameProperties.OneSidedBindExample) | Game.TryBindToAnchorChecked (proved by GameProperties.CheckedBindKeepsValid, used by Game.Step) |
| Assets/Scripts/Mortal.cs:338-376 (with 398-407) | The flight sets the destination but never clears the agent's stop flag. The fear reaction halted the agent, and at its end it resumes movement only for a mortal that has not fled. | A child with 0 fear takes 30 fear, which becomes 45 and halts the agent. The next frame (up to 5/3 s) leaves at least 40 fear, so the child flees. It is not stunned or frozen, yet its agent stays halted, so the flight loop never reaches the exit. | The fleeing mortal walks to its exit unless a stun or freeze holds it. | not executed | Mortals.BecomeScaredAwayAsWritten (shown by Mortals.FearFlightStalls) | Mortals.BecomeScaredAway (used by Mortals.Update and Mortals.TriggerFleeState; proved by Mortals.ChildScenario, GameProperties.StepKeepsValid and GameProperties.FlightReachesExit) |

=== FILE: ability.dfy ===
/** A stand-alone ghost ability with its own cooldown clock. */
module Abilities {

  datatype Ability = Ability(plasmCost: real, cooldownTime: real, lastUsedTime: real)

  /** Usable once the cooldown since the last use has fully passed. */
  predicate CanUse(a: Ability, now: real)
  {
    now >= a.lastUsedTime + a.cooldownTime
  }

  /** Using the ability restarts its cooldown at `now`. */
  function Use(a: Ability, now: real): (r: Ability)
    ensures r.lastUsedTime == now
    ensures CanUse(r, now) <==> a.cooldownTime <= 0.0
    ensures CooldownRemaining(r, now) == (if a.cooldownTime > 0.0 then a.cooldownTime else 0.0)
    ensures r.cooldownTime == a.cooldownTime && r.plasmCost == a.plasmCost
  {
    a.(lastUsedTime := now)
  }

  /** The time left until the ability is usable again, never negative. */
  function CooldownRemaining(a: Ability, now: real): (r: real)
    ensures r >= 0.0
    ensures now >= a.lastUsedTime && a.cooldownTime >= 0.0 ==> r <= a.cooldownTime
    ensures r == 0.0 <==> CanUse(a, now)
    ensures r > 0.0 ==> now + r == a.lastUsedTime + a.cooldownTime
  {
    if (a.lastUsedTime + a.cooldownTime) - now > 0.0 then (a.lastUsedTime + a.cooldownTime) - now else 0.0
  }

  /** Right after a use the ability is blocked exactly when its cooldown is positive. */
  lemma UseBlocksUntilCooldown(a: Ability, now: real)
    ensures !CanUse(Use(a, now), now) <==> a.cooldownTime > 0.0
  {
  }

  /** After a use at `t`, the ability is usable again exactly from `t` plus the cooldown. */
  lemma UsableAgainAfterCooldown(a: Ability, t: real, later: real)
    ensures CanUse(Use(a, t), later) <==> later - t >= a.cooldownTime
  {
  }
}

=== FILE: anchor.dfy ===
/**
 An anchor: the binding slot a ghost must occupy to act, with its per-type
 compatibility list and its own area ability.
 */
module Anchors {
  import opened Options
  import opened Geometry
  import opened Mortals
  import opened Dispatch
  import opened Ghosts

  datatype AnchorType = Mirror | Electrical | Furniture | Plumbing | Temperature | Generic

  /** The fields that the per-type setup overwrites. */
  datatype AnchorStats = AnchorStats(powerBonus: real, compatible: seq<GhostType>)

  /** The per-type table: only the generic anchor lists no compatible ghost types. */
  function AnchorTuning(kind: AnchorType): (s: AnchorStats)
    ensures s.powerBonus >= 1.0
    ensures |s.compatible| == 0 <==> kind == Generic
    ensures kind == Generic ==> s.powerBonus == 1.0
  {
    match kind
    case Mirror => AnchorStats(1.3, [Wraith, Phantom])
    case Electrical => AnchorStats(1.4, [Poltergeist, Specter])
    case Furniture => AnchorStats(1.5, [Poltergeist])
    case Plumbing => AnchorStats(1.2, [Specter, Banshee])
    case Temperature => AnchorStats(1.4, [Specter])
    case Generic => AnchorStats(1.0, [])
  }

  datatype Anchor = Anchor(
    kind: AnchorType,
    pos: Pos,
    /** Inspector-configured: whether the compatibility list is enforced at all. */
    requiresSpecificGhost: bool,
    occupied: bool,
    boundGhost: Option<GhostId>)

  /** The type check is applied only when the anchor asks for it and its list is non-empty. */
  predicate TypeAccepted(a: Anchor, t: GhostType)
  {
    a.requiresSpecificGhost && |AnchorTuning(a.kind).compatible| > 0 ==> t in AnchorTuning(a.kind).compatible
  }

  /** Whether a ghost of type `t` may bind here now. */
  predicate CanBindGhost(a: Anchor, t: GhostType)
  {
    !a.occupied && TypeAccepted(a, t)
  }

  /** Bind a ghost if allowed; a refusal changes nothing. */
  function BindGhost(a: Anchor, g: GhostId, t: GhostType): (r: (bool, Anchor))
    ensures r.0 <==> CanBindGhost(a, t)
    ensures !r.0 ==> r.1 == a
    ensures r.0 ==> r.1.occupied && r.1.boundGhost == Some(g) && r.1.kind == a.kind && r.1.pos == a.pos
    ensures r.1.requiresSpecificGhost == a.requiresSpecificGhost
  {
    if !CanBindGhost(a, t) then (false, a) else (true, a.(boundGhost := Some(g), occupied := true))
  }

  /** Release the slot, whoever held it. */
  function UnbindGhost(a: Anchor): (r: Anchor)
    ensures !r.occupied && r.boundGhost == None
    ensures r.kind == a.kind && r.pos == a.pos && r.requiresSpecificGhost == a.requiresSpecificGhost
  {
    a.(boundGhost := None, occupied := false)
  }

  /** The anchor ability needs an occupant. */
  predicate CanTrigger(a: Anchor)
  {
    a.occupied && a.boundGhost.Some?
  }

  /** The area ability of each anchor type; the generic anchor has none. */
  function AnchorEffect(kind: AnchorType): (e: Option<Effect>)
    ensures e.None? <==> kind == Generic
    ensures e.Some? ==> e.value.scope == EveryoneInRange && Harmless(e.value) && e.value.radius > 0.0
  {
    match kind
    case Mirror => Some(Effect(8.0, [Scare(25.0)], EveryoneInRange))
    case Electrical => Some(Effect(10.0, [Scare(20.0)], EveryoneInRange))
    case Furniture => Some(Effect(6.0, [Scare(30.0)], EveryoneInRange))
    case Plumbing => Some(Effect(7.0, [Scare(15.0)], EveryoneInRange))
    case Temperature => Some(Effect(12.0, [Scare(18.0), SlowBy(0.8, 3.0)], EveryoneInRange))
    case Generic => None
  }

  /** The anchor ability applied to the mortals: nothing unless occupied and non-generic. */
  function TriggerAnchorAbility(a: Anchor, ms: seq<Mortal>): (r: seq<Mortal>)
    ensures !CanTrigger(a) || a.kind == Generic ==> r == ms
    ensures CanTrigger(a) && a.kind != Generic ==> r == ApplyEffect(ms, a.pos, AnchorEffect(a.kind).value)
  {
    if !CanTrigger(a) then ms
    else match AnchorEffect(a.kind)
      case None => ms
      case Some(e) => ApplyEffect(ms, a.pos, e)
  }

  // ---------------------------------------------------------------------------
  // Properties
  // ---------------------------------------------------------------------------

  /** An occupied anchor refuses every ghost. */
  lemma OccupiedRefuses(a: Anchor, t: GhostType)
    requires a.occupied
    ensures !CanBindGhost(a, t) && !BindGhost(a, 0, t).0
  {
  }

  /**
   On a free anchor, the type decides only when the anchor enforces a
   non-empty list, and then exactly by membership in that list.
   */
  lemma CompatibilityRule(a: Anchor, t: GhostType)
    requires !a.occupied
    ensures !a.requiresSpecificGhost || a.kind == Generic ==> CanBindGhost(a, t)
    ensures a.requiresSpecificGhost && a.kind != Generic ==>
      (CanBindGhost(a, t) <==> exists k :: 0 <= k < |AnchorTuning(a.kind).compatible| && AnchorTuning(a.kind).compatible[k] == t)
  {
  }

  /** Releasing twice is the same as releasing once. */
  lemma UnbindIdempotent(a: Anchor)
    ensures UnbindGhost(UnbindGhost(a)) == UnbindGhost(a)
  {
  }

  /** Binding a free, empty anchor and releasing it gives back the very same anchor. */
  lemma BindUnbindRoundTrip(a: Anchor, g: GhostId, t: GhostType)
    requires !a.occupied && a.boundGhost == None
    requires BindGhost(a, g, t).0
    ensures UnbindGhost(BindGhost(a, g, t).1) == a
  {
  }
}

=== FILE: dispatch.dfy ===
/**
 The game manager's range queries and the delivery of a power's hits to the
 mortals the query returns.
 */
module Dispatch {
  import opened Geometry
  import opened Mortals

  /** Who among the mortals in range is hit: all of them, or only the first in list order. */
  datatype Scope = EveryoneInRange | FirstInRange

  /** What a power or an anchor does: the query radius, the hits, and who receives them. */
  datatype Effect = Effect(radius: real, actions: seq<Action>, scope: Scope)

  /** Strictly increasing indices: a query result in list order, without repeats. */
  predicate Increasing(idxs: seq<nat>)
  {
    forall k, l :: 0 <= k < l < |idxs| ==> idxs[k] < idxs[l]
  }

  /**
   The inclusive radius filter over a list of positions: exactly the indices
   whose position lies within `range` of `center`, in list order.
   */
  function InRangeIndices(ps: seq<Pos>, center: Pos, range: real): (r: seq<nat>)
    ensures Increasing(r)
    ensures forall k :: 0 <= k < |r| ==> r[k] < |ps| && InRange(center, ps[r[k]], range)
    ensures forall i :: 0 <= i < |ps| && InRange(center, ps[i], range) ==> i in r
    decreases |ps|
  {
    if |ps| == 0 then []
    else
      var pre := InRangeIndices(ps[..|ps| - 1], center, range);
      if InRange(center, ps[|ps| - 1], range) then pre + [|ps| - 1] else pre
  }

  function MortalPositions(ms: seq<Mortal>): (ps: seq<Pos>)
    ensures |ps| == |ms|
    ensures forall i :: 0 <= i < |ms| ==> ps[i] == ms[i].pos
  {
    seq(|ms|, i requires 0 <= i < |ms| => ms[i].pos)
  }

  /** The mortals within `range` of `center`, as indices into the mortal list. */
  function MortalsInRange(ms: seq<Mortal>, center: Pos, range: real): (r: seq<nat>)
    ensures Increasing(r)
    ensures forall k :: 0 <= k < |r| ==> r[k] < |ms|
    ensures forall i :: 0 <= i < |ms| ==> (i in r <==> InRange(center, ms[i].pos, range))
  {
    InRangeIndices(MortalPositions(ms), center, range)
  }

  /** Deliver the hits to each listed mortal once, leaving every other mortal alone. */
  function ApplyAt(ms: seq<Mortal>, idxs: seq<nat>, acts: seq<Action>): (r: seq<Mortal>)
    requires Increasing(idxs)
    requires forall k :: 0 <= k < |idxs| ==> idxs[k] < |ms|
    ensures |r| == |ms|
    ensures forall i :: 0 <= i < |ms| ==> r[i] == if i in idxs then ApplyActions(ms[i], acts) else ms[i]
    decreases |idxs|
  {
    if |idxs| == 0 then ms
    else
      var last := idxs[|idxs| - 1];
      var pre := ApplyAt(ms, idxs[..|idxs| - 1], acts);
      assert last !in idxs[..|idxs| - 1];
      pre[last := ApplyActions(pre[last], acts)]
  }

  /** The targets of an effect: the whole query result, or its first element only. */
  function Targets(ms: seq<Mortal>, center: Pos, e: Effect): (t: seq<nat>)
    ensures Increasing(t)
    ensures forall k :: 0 <= k < |t| ==> t[k] < |ms|
  {
    var hits := MortalsInRange(ms, center, e.radius);
    if e.scope == FirstInRange && |hits| > 0 then hits[..1] else if e.scope == FirstInRange then [] else hits
  }

  /** The mortal at `i` is the first one in range. */
  predicate FirstHit(ms: seq<Mortal>, center: Pos, range: real, i: int)
    requires 0 <= i < |ms|
  {
    InRange(center, ms[i].pos, range) && forall j :: 0 <= j < i ==> !InRange(center, ms[j].pos, range)
  }

  /**
   An effect fired from `center`: with scope EveryoneInRange every mortal in
   range is hit; with FirstInRange only the first mortal in range in list order.
   Everybody else is untouched.
   */
  function ApplyEffect(ms: seq<Mortal>, center: Pos, e: Effect): (r: seq<Mortal>)
    ensures |r| == |ms|
    ensures e.scope == EveryoneInRange ==>
      forall i :: 0 <= i < |ms| ==>
        r[i] == if InRange(center, ms[i].pos, e.radius) then ApplyActions(ms[i], e.actions) else ms[i]
    ensures e.scope == FirstInRange ==>
      forall i :: 0 <= i < |ms| ==>
        r[i] == if FirstHit(ms, center, e.radius, i) then ApplyActions(ms[i], e.actions) else ms[i]
  {
    var t := Targets(ms, center, e);
    TargetsAreHits(ms, center, e);
    ApplyAt(ms, t, e.actions)
  }

  /** The targets of an effect are the mortals in range, or the first of them. */
  lemma TargetsAreHits(ms: seq<Mortal>, center: Pos, e: Effect)
    ensures e.scope == EveryoneInRange ==>
      forall i :: 0 <= i < |ms| ==> (i in Targets(ms, center, e) <==> InRange(center, ms[i].pos, e.radius))
    ensures e.scope == FirstInRange ==>
      forall i :: 0 <= i < |ms| ==> (i in Targets(ms, center, e) <==> FirstHit(ms, center, e.radius, i))
  {
    var t := Targets(ms, center, e);
    var hits := MortalsInRange(ms, center, e.radius);
    if e.scope == FirstInRange {
      forall i | 0 <= i < |ms|
        ensures i in t <==> FirstHit(ms, center, e.radius, i)
      {
        if i in t {
          assert i == hits[0];
          forall j | 0 <= j < i
            ensures !InRange(center, ms[j].pos, e.radius)
          {
            assert j !in hits;
          }
        }
        if FirstHit(ms, center, e.radius, i) {
          assert hits[0] == i;
        }
      }
    }
  }

  /** Every hit of the effect is a non-negative scare or a status overlay. */
  predicate Harmless(e: Effect)
  {
    NonNegative(e.actions)
  }

  /** Delivering non-negative hits keeps every mortal's invariant. */
  lemma ApplyEffectKeepsValid(ms: seq<Mortal>, center: Pos, e: Effect)
    requires forall i :: 0 <= i < |ms| ==> Valid(ms[i])
    requires Harmless(e)
    ensures forall i :: 0 <= i < |ms| ==> Valid(ApplyEffect(ms, center, e)[i])
    ensures forall i :: 0 <= i < |ms| ==> ApplyEffect(ms, center, e)[i].active == ms[i].active
    ensures forall i :: 0 <= i < |ms| ==> ApplyEffect(ms, center, e)[i].pos == ms[i].pos
    ensures forall i :: 0 <= i < |ms| ==> ApplyEffect(ms, center, e)[i].hasFled == ms[i].hasFled
  {
    forall i | 0 <= i < |ms|
      ensures Valid(ApplyActions(ms[i], e.actions))
      ensures ApplyActions(ms[i], e.actions).active == ms[i].active
      ensures ApplyActions(ms[i], e.actions).pos == ms[i].pos
      ensures ApplyActions(ms[i], e.actions).hasFled == ms[i].hasFled
    {
      ApplyActionsKeepsValid(ms[i], e.actions);
    }
  }
}

=== FILE: geometry.dfy ===
/**
 Positions and the straight-line distance comparisons the game makes.

 Every use of `Vector3.Distance` in the game compares a distance with a radius
 (`<=`) or with another distance (`<`). Both comparisons are decided exactly by
 squared distances, so the model keeps positions as real coordinates and never
 takes a square root.
 */
module Geometry {

  datatype Pos = Pos(x: real, y: real, z: real)

  /** The squared straight-line distance between two points. */
  function DistSq(a: Pos, b: Pos): (d: real)
    ensures d >= 0.0
  {
    (a.x - b.x) * (a.x - b.x) + (a.y - b.y) * (a.y - b.y) + (a.z - b.z) * (a.z - b.z)
  }

  /** `Distance(center, p) <= range`: the inclusive radius test of the range queries. */
  predicate InRange(center: Pos, p: Pos, range: real)
  {
    range >= 0.0 && DistSq(center, p) <= range * range
  }
}

=== FILE: ghost.dfy ===
/**
 A ghost: the per-type power table, the power gate, and what each power does
 to the mortals around the ghost. Binding and the plasm pool are shared with
 anchors and the game manager, so the operations that touch them live in the
 world model.
 */
module Ghosts {
  import opened Options
  import opened Geometry
  import opened Mortals
  import opened Dispatch

  datatype GhostType = Poltergeist | Banshee | Wraith | Phantom | Specter

  /** Ghosts are identified by a key of the world's ghost map. */
  type GhostId = nat

  /** The fields that the per-type setup overwrites. */
  datatype GhostStats = GhostStats(powerRange: real, primaryCost: int, secondaryCost: int)

  /** The per-type power table: the secondary power is always the dearer one. */
  function GhostTuning(kind: GhostType): (s: GhostStats)
    ensures 0 < s.primaryCost < s.secondaryCost
    ensures s.powerRange > 0.0
  {
    match kind
    case Poltergeist => GhostStats(4.0, 3, 6)
    case Banshee => GhostStats(8.0, 5, 10)
    case Wraith => GhostStats(3.0, 4, 7)
    case Phantom => GhostStats(2.0, 8, 12)
    case Specter => GhostStats(6.0, 4, 8)
  }

  datatype Ghost = Ghost(
    kind: GhostType,
    pos: Pos,
    /** Inspector-configured: not part of the per-type table. */
    bindCost: int,
    powerCooldown: real,
    /** The anchor the ghost is bound to, by index among the world's anchors. */
    anchor: Option<nat>,
    selected: bool,
    /** One timestamp shared by both powers. */
    lastPowerUse: real)

  /** A ghost as placed in the level: unbound, unselected, never used a power. */
  function Initialize(kind: GhostType, pos: Pos, bindCost: int, powerCooldown: real): (g: Ghost)
    ensures g.kind == kind && g.pos == pos && g.bindCost == bindCost && g.powerCooldown == powerCooldown
    ensures g.anchor == None && !g.selected && g.lastPowerUse == 0.0
  {
    Ghost(kind, pos, bindCost, powerCooldown, None, false, 0.0)
  }

  datatype Power = Primary | Secondary

  function PowerCost(kind: GhostType, p: Power): (c: int)
    ensures c > 0
    ensures p == Secondary ==> c > GhostTuning(kind).primaryCost
  {
    if p == Primary then GhostTuning(kind).primaryCost else GhostTuning(kind).secondaryCost
  }

  /**
   The gate in front of both powers: bound to an anchor, the shared cooldown
   over, and the pool holding at least the cost.
   */
  predicate CanUsePower(g: Ghost, now: real, plasm: int, cost: int)
  {
    g.anchor.Some? && !(now - g.lastPowerUse < g.powerCooldown) && !(plasm < cost)
  }

  /**
   The gate only opens wider with time and plasm: a power usable now with some
   plasm is usable at any later moment with at least as much.
   */
  lemma GateStaysOpen(g: Ghost, now: real, later: real, plasm: int, more: int, cost: int)
    requires now <= later && plasm <= more
    ensures CanUsePower(g, now, plasm, cost) ==> CanUsePower(g, later, more, cost)
    ensures g.anchor.None? ==> !CanUsePower(g, later, more, cost)
  {
  }

  /**
   What a power does. Wraith and Phantom secondaries hit only the first mortal
   in range; every other power hits everyone in range. The Poltergeist
   secondary reaches half again as far as the ghost's range; every other power
   uses the range itself.
   */
  function PowerEffect(kind: GhostType, range: real, p: Power): (e: Effect)
    ensures e.scope == FirstInRange <==> p == Secondary && (kind == Wraith || kind == Phantom)
    ensures e.radius == if p == Secondary && kind == Poltergeist then range * 1.5 else range
    ensures Harmless(e)
  {
    match (kind, p)
    case (Poltergeist, Primary) => Effect(range, [Scare(20.0)], EveryoneInRange)
    case (Poltergeist, Secondary) => Effect(range * 1.5, [Scare(35.0)], EveryoneInRange)
    case (Banshee, Primary) => Effect(range, [Scare(30.0)], EveryoneInRange)
    case (Banshee, Secondary) => Effect(range, [Scare(50.0), StunFor(2.0)], EveryoneInRange)
    case (Wraith, Primary) => Effect(range, [Scare(25.0)], EveryoneInRange)
    case (Wraith, Secondary) => Effect(range, [Scare(40.0)], FirstInRange)
    case (Phantom, Primary) => Effect(range, [Scare(35.0)], EveryoneInRange)
    case (Phantom, Secondary) => Effect(range, [PossessFor(3.0)], FirstInRange)
    case (Specter, Primary) => Effect(range, [Scare(20.0), SlowBy(0.5, 3.0)], EveryoneInRange)
    case (Specter, Secondary) => Effect(range, [Scare(30.0), FreezeFor(2.0)], EveryoneInRange)
  }

  /** A ghost's power, with the range taken from its type's table. */
  function GhostEffect(g: Ghost, p: Power): Effect
  {
    PowerEffect(g.kind, GhostTuning(g.kind).powerRange, p)
  }
}

=== FILE: mission.dfy ===
/**
 The mission: its objectives, the once-a-second progress pass, the
 completion and failure flags, and the score announced on completion.
 */
module Missions {
  import opened Options
  import opened Objectives
  import Mortals

  datatype Mission = Mission(objectives: seq<Objective>, completed: bool, failed: bool)

  /** A mission is running while it has neither been completed nor failed. */
  predicate IsMissionActive(m: Mission)
  {
    !m.completed && !m.failed
  }

  // ---------------------------------------------------------------------------
  // Score
  // ---------------------------------------------------------------------------

  const BaseScore := 1000
  const ObjectiveBonus := 500
  const OptionalBonus := 250

  /** The number of completed objectives. */
  function CountCompleted(os: seq<Objective>): (n: nat)
    ensures n <= |os|
    ensures n == 0 <==> forall i :: 0 <= i < |os| ==> !os[i].completed
    ensures n == |os| <==> forall i :: 0 <= i < |os| ==> os[i].completed
  {
    if |os| == 0 then 0
    else
      var rest := CountCompleted(os[1..]);
      assert forall i :: 1 <= i < |os| ==> os[i] == os[1..][i - 1];
      (if os[0].completed then 1 else 0) + rest
  }

  /** The number of objectives that are both optional and completed. */
  function CountOptionalCompleted(os: seq<Objective>): (n: nat)
    ensures n <= CountCompleted(os)
    ensures n == 0 <==> forall i :: 0 <= i < |os| ==> !(os[i].optional && os[i].completed)
  {
    if |os| == 0 then 0
    else
      var rest := CountOptionalCompleted(os[1..]);
      assert forall i :: 1 <= i < |os| ==> os[i] == os[1..][i - 1];
      (if os[0].optional && os[0].completed then 1 else 0) + rest
  }

  /**
   The mission score: a base of 1000, 500 for every completed objective, and
   250 more for every completed optional one.
   */
  function Score(os: seq<Objective>): (s: int)
    ensures BaseScore <= s <= BaseScore + (ObjectiveBonus + OptionalBonus) * |os|
    ensures s == BaseScore <==> forall i :: 0 <= i < |os| ==> !os[i].completed
    ensures (forall i :: 0 <= i < |os| ==> os[i].completed && !os[i].optional) ==>
      s == BaseScore + ObjectiveBonus * |os|
  {
    BaseScore + ObjectiveBonus * CountCompleted(os) + OptionalBonus * CountOptionalCompleted(os)
  }

  /** `after` has the same objectives as `before` with at most more of them completed. */
  predicate MoreCompleted(before: seq<Objective>, after: seq<Objective>)
  {
    |before| == |after| &&
    forall i :: 0 <= i < |before| ==>
      after[i].optional == before[i].optional && (before[i].completed ==> after[i].completed)
  }

  /** Completing more objectives never lowers the score. */
  lemma {:induction false} ScoreMonotone(before: seq<Objective>, after: seq<Objective>)
    requires MoreCompleted(before, after)
    ensures CountCompleted(before) <= CountCompleted(after)
    ensures CountOptionalCompleted(before) <= CountOptionalCompleted(after)
    ensures Score(before) <= Score(after)
    decreases |before|
  {
    if |before| > 0 {
      assert MoreCompleted(before[1..], after[1..]) by {
        forall i | 0 <= i < |before| - 1
          ensures after[1..][i].optional == before[1..][i].optional
          ensures before[1..][i].completed ==> after[1..][i].completed
        {
          assert before[1..][i] == before[i + 1] && after[1..][i] == after[i + 1];
        }
      }
      ScoreMonotone(before[1..], after[1..]);
    }
  }

  /**
   Completing one more objective, everything else equal, adds exactly one to
   the completed count, one to the optional count iff that objective is
   optional, and so 500 to the score, or 750 for an optional objective.
   Starting from the all-open mission, whose score is the base, this fixes
   both counts and the score of every mission.
   */
  lemma {:induction false} CompleteOneMore(os: seq<Objective>, i: nat)
    requires i < |os| && !os[i].completed
    ensures CountCompleted(os[i := os[i].(completed := true)]) == CountCompleted(os) + 1
    ensures CountOptionalCompleted(os[i := os[i].(completed := true)]) ==
      CountOptionalCompleted(os) + (if os[i].optional then 1 else 0)
    ensures Score(os[i := os[i].(completed := true)]) ==
      Score(os) + ObjectiveBonus + (if os[i].optional then OptionalBonus else 0)
    decreases |os|
  {
    var after := os[i := os[i].(completed := true)];
    if i == 0 {
      assert after[1..] == os[1..];
    } else {
      assert after[1..] == os[1..][i - 1 := os[1..][i - 1].(completed := true)];
      CompleteOneMore(os[1..], i - 1);
    }
  }

  // ---------------------------------------------------------------------------
  // Completion and failure
  // ---------------------------------------------------------------------------

  /**
   Complete the mission and announce its score. A mission already completed
   is left alone and announces nothing; a failed mission is not checked.
   */
  function CompleteMission(m: Mission): (r: (Mission, Option<int>))
    ensures r.0.completed
    ensures r.0.objectives == m.objectives && r.0.failed == m.failed
    ensures r.1.Some? <==> !m.completed
    ensures r.1.Some? ==> r.1.value == Score(m.objectives) && r.1.value >= BaseScore
    ensures m.completed ==> r.0 == m
  {
    if m.completed then (m, None) else (m.(completed := true), Some(Score(m.objectives)))
  }

  /** Fail the mission, unless it has already been failed or completed. */
  function FailMission(m: Mission): (r: Mission)
    ensures r.failed <==> m.failed || !m.completed
    ensures r.completed == m.completed && r.objectives == m.objectives
    ensures r != m <==> IsMissionActive(m)
  {
    if m.failed || m.completed then m else m.(failed := true)
  }

  /** Completing twice announces the score once and changes nothing the second time. */
  lemma CompleteIsIdempotent(m: Mission)
    ensures CompleteMission(CompleteMission(m).0) == (CompleteMission(m).0, None)
  {
  }

  /**
   Failure does not stop a later completion: failing and then completing a
   running mission leaves both flags set and still announces a score; the
   other order leaves the mission completed and not failed.
   */
  lemma FailThenComplete(m: Mission)
    requires IsMissionActive(m)
    ensures CompleteMission(FailMission(m)).0.completed && CompleteMission(FailMission(m)).0.failed
    ensures CompleteMission(FailMission(m)).1.Some?
    ensures FailMission(CompleteMission(m).0).completed && !FailMission(CompleteMission(m).0).failed
  {
  }

  /** Every mandatory (non-optional) objective is completed; vacuously so when there is none. */
  predicate MandatoryDone(os: seq<Objective>)
  {
    forall i :: 0 <= i < |os| ==> !os[i].optional ==> os[i].completed
  }

  /** The completion handler: complete the mission once every mandatory objective is done. */
  function OnObjectiveCompleted(m: Mission): (r: (Mission, Option<int>))
    ensures r.0.objectives == m.objectives && r.0.failed == m.failed
    ensures r.0.completed <==> m.completed || MandatoryDone(m.objectives)
    ensures r.1.Some? <==> !m.completed && MandatoryDone(m.objectives)
    ensures (forall i :: 0 <= i < |m.objectives| ==> m.objectives[i].optional) ==> r.0.completed
  {
    if MandatoryDone(m.objectives) then CompleteMission(m) else (m, None)
  }

  // ---------------------------------------------------------------------------
  // The progress pass
  // ---------------------------------------------------------------------------

  /** The raw fear level above which a mortal counts as scared, whatever its type. */
  const ScaredFear: real := 80.0

  /**
   The scared mortals the pass can see: only mortals still in the house are
   found, and each counts when its fear is above 80 or it has fled.
   */
  predicate CountsAsScared(m: Mortals.Mortal)
  {
    m.active && (m.fear > ScaredFear || m.hasFled)
  }

  function ScareCount(ms: seq<Mortals.Mortal>): (n: nat)
    ensures n <= |ms|
    ensures n == |ms| <==> forall i :: 0 <= i < |ms| ==> CountsAsScared(ms[i])
    ensures n == 0 <==> forall i :: 0 <= i < |ms| ==> !CountsAsScared(ms[i])
  {
    if |ms| == 0 then 0
    else
      var rest := ScareCount(ms[1..]);
      assert forall i :: 1 <= i < |ms| ==> ms[i] == ms[1..][i - 1];
      (if CountsAsScared(ms[0]) then 1 else 0) + rest
  }

  /** A mortal that has left the house is no longer counted, although it has fled. */
  lemma DepartedNotCounted(ms: seq<Mortals.Mortal>, i: nat)
    requires i < |ms| && CountsAsScared(ms[i])
    ensures ScareCount(ms[i := Mortals.Depart(ms[i])]) < ScareCount(ms)
  {
    DepartedNotCountedAt(ms, i);
  }

  lemma {:induction false} DepartedNotCountedAt(ms: seq<Mortals.Mortal>, i: nat)
    requires i < |ms| && CountsAsScared(ms[i])
    ensures ScareCount(ms[i := Mortals.Depart(ms[i])]) == ScareCount(ms) - 1
    decreases |ms|
  {
    var ms' := ms[i := Mortals.Depart(ms[i])];
    if i == 0 {
      assert ms'[1..] == ms[1..];
    } else {
      assert ms'[1..] == ms[1..][i - 1 := Mortals.Depart(ms[1..][i - 1])];
      DepartedNotCountedAt(ms[1..], i - 1);
    }
  }

  /** Round to the nearest integer, a tie going to the even neighbour. */
  function RoundToInt(x: real): (n: int)
    ensures (n as real) - 0.5 <= x <= (n as real) + 0.5
    ensures x == (n as real) - 0.5 || x == (n as real) + 0.5 ==> n % 2 == 0
  {
    var f := x.Floor;
    var frac := x - f as real;
    if frac < 0.5 then f
    else if frac > 0.5 then f + 1
    else if f % 2 == 0 then f
    else f + 1
  }

  /** The progress one objective takes in a pass, and whether it completed. */
  function Advance(o: Objective, scared: int, seconds: int): (r: (Objective, bool))
    ensures r.1 <==> !o.completed && r.0.completed
    ensures r.0.kind == o.kind && r.0.target == o.target && r.0.optional == o.optional
    ensures o.completed ==> r.0.completed
    ensures r.0 == o.(current := r.0.current, completed := r.0.completed)
    ensures o.kind == ScareAllMortals ==>
      r.0.current == MinInt(scared, o.target) && (r.0.completed <==> o.completed || scared >= o.target)
    ensures o.kind == SurviveTime ==>
      r.0.current == MinInt(seconds, o.target) && (r.0.completed <==> o.completed || seconds >= o.target)
    ensures o.kind != ScareAllMortals && o.kind != SurviveTime ==> r == (o, false)
  {
    match o.kind
    case ScareAllMortals => SetProgress(o, scared)
    case SurviveTime => SetProgress(o, seconds)
    case _ => (o, false)
  }

  /** Some objective that was open before is completed after. */
  predicate NewlyCompleted(before: seq<Objective>, after: seq<Objective>)
    requires |before| == |after|
  {
    exists i :: 0 <= i < |before| && !before[i].completed && after[i].completed
  }

  /**
   What holds after the pass has visited the first `i` objectives of `m`,
   leaving the mission `r` and the announced score `score`.
   */
  predicate PassInv(m: Mission, r: Mission, score: Option<int>, i: nat, scared: int, seconds: int)
  {
    && i <= |m.objectives|
    && |r.objectives| == |m.objectives| && !r.failed
    && MoreCompleted(m.objectives, r.objectives)
    && (forall k :: i <= k < |m.objectives| ==> r.objectives[k] == m.objectives[k])
    && (forall k :: 0 <= k < i ==>
          r.objectives[k] == if m.objectives[k].completed then m.objectives[k]
                             else Advance(m.objectives[k], scared, seconds).0)
    && (r.completed ==> NewlyCompleted(m.objectives, r.objectives) && MandatoryDone(r.objectives))
    && (NewlyCompleted(m.objectives, r.objectives) && MandatoryDone(r.objectives) ==> r.completed)
    && (score.Some? <==> r.completed)
    && (score.Some? ==> BaseScore <= score.value <= Score(r.objectives))
  }

  /**
   Visit objective `i`: skip it when completed, otherwise advance it and, when
   that completes it, run the completion handler, keeping the first score
   announced.
   */
  function Visit(r: Mission, score: Option<int>, i: nat, scared: int, seconds: int): (out: (Mission, Option<int>))
    requires i < |r.objectives|
    ensures |out.0.objectives| == |r.objectives|
  {
    var o := r.objectives[i];
    if o.completed then (r, score)
    else
      var (o', fired) := Advance(o, scared, seconds);
      var r1 := r.(objectives := r.objectives[i := o']);
      if fired then
        var (r2, s) := OnObjectiveCompleted(r1);
        (r2, if s.Some? then s else score)
      else (r1, score)
  }

  /** Visiting the next objective keeps the pass invariant. */
  lemma VisitKeepsPassInv(m: Mission, r: Mission, score: Option<int>, i: nat, scared: int, seconds: int)
    requires IsMissionActive(m) && i < |m.objectives|
    requires PassInv(m, r, score, i, scared, seconds)
    ensures PassInv(m, Visit(r, score, i, scared, seconds).0, Visit(r, score, i, scared, seconds).1, i + 1, scared, seconds)
  {
    var o := r.objectives[i];
    if !o.completed {
      var before := r.objectives;
      var (o', fired) := Advance(o, scared, seconds);
      var r1 := r.(objectives := r.objectives[i := o']);
      assert MoreCompleted(before, r1.objectives);
      if score.Some? {
        ScoreMonotone(before, r1.objectives);
      }
      if fired {
        assert NewlyCompleted(m.objectives, r1.objectives) by {
          assert !m.objectives[i].completed && r1.objectives[i].completed;
        }
      } else {
        SameFlagsKeepDone(m.objectives, before, r1.objectives, i);
      }
    }
  }

  /**
   The once-a-second progress pass at time `now` over the mortals `ms`. A
   mission that is over is left alone. Otherwise each open objective is
   advanced in list order: scare-all objectives to the number of scared
   mortals, survive-time objectives to the rounded time, the other kinds not
   at all. Each completion runs the handler at once, so the pass completes
   the mission exactly when it completes some objective and, at the end,
   every mandatory objective is done. The score is announced at most once,
   counted at the moment of completion, so it never exceeds the final score.
   */
  method UpdateObjectiveProgress(m: Mission, ms: seq<Mortals.Mortal>, now: real)
    returns (r: Mission, score: Option<int>)
    ensures !IsMissionActive(m) ==> r == m && score == None
    ensures |r.objectives| == |m.objectives| && r.failed == m.failed
    ensures MoreCompleted(m.objectives, r.objectives)
    ensures forall i :: 0 <= i < |m.objectives| && m.objectives[i].completed ==>
      r.objectives[i] == m.objectives[i]
    ensures IsMissionActive(m) ==> forall i :: 0 <= i < |m.objectives| && !m.objectives[i].completed ==>
      r.objectives[i] == (match m.objectives[i].kind
                          case ScareAllMortals => SetProgress(m.objectives[i], ScareCount(ms)).0
                          case SurviveTime => SetProgress(m.objectives[i], RoundToInt(now)).0
                          case _ => m.objectives[i])
    ensures IsMissionActive(m) ==>
      (r.completed <==> NewlyCompleted(m.objectives, r.objectives) && MandatoryDone(r.objectives))
    ensures score.Some? <==> IsMissionActive(m) && r.completed
    ensures score.Some? ==> BaseScore <= score.value <= Score(r.objectives)
  {
    if !IsMissionActive(m) {
      return m, None;
    }
    var scared := ScareCount(ms);
    var seconds := RoundToInt(now);
    r, score := m, None;
    var i := 0;
    assert NewlyCompleted(m.objectives, r.objectives) == false;
    while i < |m.objectives|
      invariant PassInv(m, r, score, i, scared, seconds)
    {
      VisitKeepsPassInv(m, r, score, i, scared, seconds);
      var next := Visit(r, score, i, scared, seconds);
      r, score := next.0, next.1;
      i := i + 1;
    }
  }

  /**
   Advancing an open objective without completing it changes neither whether
   some objective has newly completed nor whether the mandatory ones are done.
   */
  lemma SameFlagsKeepDone(orig: seq<Objective>, before: seq<Objective>, after: seq<Objective>, i: nat)
    requires |orig| == |before| == |after| && i < |before|
    requires forall k :: 0 <= k < |before| && k != i ==> after[k] == before[k]
    requires after[i].completed == before[i].completed == orig[i].completed
    requires after[i].optional == before[i].optional
    ensures NewlyCompleted(orig, after) <==> NewlyCompleted(orig, before)
    ensures MandatoryDone(after) <==> MandatoryDone(before)
  {
    if NewlyCompleted(orig, before) {
      var k :| 0 <= k < |orig| && !orig[k].completed && before[k].completed;
      assert after[k].completed;
    }
    if NewlyCompleted(orig, after) {
      var k :| 0 <= k < |orig| && !orig[k].completed && after[k].completed;
      assert before[k].completed;
    }
  }
}

=== FILE: mortal.dfy ===
/**
 A mortal: the fear meter, the timed status overlays (stun, freeze, slow,
 possession), the flee transition with its nearest-exit choice, and the
 state effects of the mortal's timed behaviours.

 Navigation is not modelled: positions are inputs, and the timed behaviours
 (fear reaction, waypoint wander, flight to the exit) appear only through the
 events that end them.
 */
module Mortals {
  import opened Geometry

  datatype MortalType = Child | Adult | Elderly | Skeptic | Believer

  /** The tuning fields that the per-type setup overwrites. */
  datatype MortalStats = MortalStats(maxFear: real, scareThreshold: real, fleeSpeed: real, fearDecayRate: real)

  /** The per-type tuning table. */
  function MortalTuning(kind: MortalType): (s: MortalStats)
    ensures 0.0 < s.scareThreshold < s.maxFear
    ensures s.fleeSpeed > 0.0 && s.fearDecayRate > 0.0
    ensures kind == Child ==> s.scareThreshold == 40.0 && s.maxFear == 60.0
    ensures kind == Adult ==> s.scareThreshold == 80.0 && s.maxFear == 100.0
  {
    match kind
    case Child => MortalStats(60.0, 40.0, 4.0, 3.0)
    case Adult => MortalStats(100.0, 80.0, 3.5, 5.0)
    case Elderly => MortalStats(120.0, 100.0, 2.0, 2.0)
    case Skeptic => MortalStats(150.0, 120.0, 3.0, 8.0)
    case Believer => MortalStats(80.0, 60.0, 4.5, 2.0)
  }

  /** Walking speed: seventy percent of the flee speed. */
  function WalkSpeed(kind: MortalType): (v: real)
    ensures 0.0 < v < MortalTuning(kind).fleeSpeed
  {
    MortalTuning(kind).fleeSpeed * 0.7
  }

  /** How strongly incoming fear is scaled for each type. */
  function FearMultiplier(kind: MortalType): (k: real)
    ensures k > 0.0
    ensures kind == Child || kind == Believer ==> k > 1.0
    ensures kind == Skeptic ==> k < 1.0
    ensures kind == Adult || kind == Elderly ==> k == 1.0
  {
    match kind
    case Child => 1.5
    case Skeptic => 0.5
    case Believer => 1.3
    case _ => 1.0
  }

  /** Where a fleeing mortal is heading. */
  datatype FleeTarget =
    | NotFleeing
      /** Tracking the chosen exit, by index among the exits and by position. */
    | ToExit(exit: nat, at: Pos)
      /** No exit exists: running straight away from the viewer (an opaque target). */
    | AwayFromViewer

  datatype Mortal = Mortal(
    kind: MortalType,
    pos: Pos,
    /** The agent speed captured before the type table is applied. */
    baseSpeed: real,
    waypointCount: nat,
    waypoint: nat,
    fear: real,
    scaredAway: bool,
    hasFled: bool,
    /** False once the mortal has left through an exit. */
    active: bool,
    stunned: bool,
    stunTimer: real,
    possessed: bool,
    possessionTimer: real,
    frozen: bool,
    freezeTimer: real,
    slowTimer: real,
    slowMultiplier: real,
    /** The navigation agent's current speed. */
    speed: real,
    /** The navigation agent's stop flag. */
    stopped: bool,
    /** A wander behaviour (waypoint or random) is scheduled. */
    wandering: bool,
    target: FleeTarget)

  /** The per-mortal invariant. */
  predicate Valid(m: Mortal)
  {
    && 0.0 <= m.fear <= MortalTuning(m.kind).maxFear
    && m.scaredAway == m.hasFled
    && (m.scaredAway <==> !m.target.NotFleeing?)
    && (!m.active ==> m.scaredAway)
    && (m.active && m.scaredAway && !m.stunned && !m.frozen ==> !m.stopped)
    && (if m.waypointCount > 0 then m.waypoint < m.waypointCount else m.waypoint == 0)
  }

  /** A freshly placed mortal after its initialisation: calm, wandering, at walking speed. */
  function Initialize(kind: MortalType, pos: Pos, baseSpeed: real, waypointCount: nat): (m: Mortal)
    ensures Valid(m)
    ensures m.kind == kind && m.pos == pos && m.baseSpeed == baseSpeed
    ensures m.waypointCount == waypointCount && m.waypoint == 0
    ensures m.active && m.wandering && !m.stopped && !m.scaredAway && m.fear == 0.0
    ensures !m.stunned && !m.frozen && !m.possessed && m.slowTimer <= 0.0
    ensures m.speed == WalkSpeed(kind) && m.slowMultiplier == 1.0
  {
    Mortal(kind, pos, baseSpeed, waypointCount, 0, 0.0, false, false, true,
           false, 0.0, false, 0.0, false, 0.0, 0.0, 1.0, WalkSpeed(kind), false, true, NotFleeing)
  }

  function MinReal(a: real, b: real): real { if a < b then a else b }
  function MaxReal(a: real, b: real): real { if a > b then a else b }

  /**
   Incoming fear. Ignored once the mortal is scared away or gone; otherwise the
   amount is scaled by the type multiplier and the meter is capped at the
   type's maximum. The wander behaviour is interrupted and the fear reaction
   halts the agent.
   */
  function TakeFear(m: Mortal, amount: real): (r: Mortal)
    ensures m.scaredAway || !m.active ==> r == m
    ensures !m.scaredAway && m.active ==>
      && r.fear <= MortalTuning(m.kind).maxFear
      && r.fear <= m.fear + amount * FearMultiplier(m.kind)
      && (r.fear == m.fear + amount * FearMultiplier(m.kind) || r.fear == MortalTuning(m.kind).maxFear)
      && r == m.(fear := r.fear, wandering := false, stopped := true)
  {
    if m.scaredAway || !m.active then m
    else
      m.(fear := MinReal(m.fear + amount * FearMultiplier(m.kind), MortalTuning(m.kind).maxFear),
         wandering := false, stopped := true)
  }

  /** Fear decays at the type's rate, never below zero; possession suspends the decay. */
  function Decay(m: Mortal, dt: real): (r: Mortal)
    ensures m.possessed ==> r == m
    ensures r == m.(fear := r.fear)
    ensures m.fear >= 0.0 ==> r.fear >= 0.0
    ensures dt >= 0.0 ==> r.fear <= m.fear
    ensures !m.possessed && m.fear >= 0.0 && dt >= 0.0 ==>
      && r.fear >= m.fear - MortalTuning(m.kind).fearDecayRate * dt
      && (r.fear == 0.0 || r.fear == m.fear - MortalTuning(m.kind).fearDecayRate * dt)
  {
    if m.fear > 0.0 && !m.possessed then
      m.(fear := MaxReal(0.0, m.fear - MortalTuning(m.kind).fearDecayRate * dt))
    else m
  }

  /**
   The exit a fleeing mortal heads for: a left-to-right scan that replaces the
   current best only on a strictly shorter distance, so it is a nearest exit
   and, among equally near exits, the first.
   */
  function NearestExit(from: Pos, exits: seq<Pos>): (k: nat)
    requires |exits| > 0
    ensures k < |exits|
    ensures forall j :: 0 <= j < |exits| ==> DistSq(from, exits[k]) <= DistSq(from, exits[j])
    ensures forall j :: 0 <= j < k ==> DistSq(from, exits[j]) > DistSq(from, exits[k])
    decreases |exits|
  {
    if |exits| == 1 then 0
    else
      var k := NearestExit(from, exits[..|exits| - 1]);
      if DistSq(from, exits[|exits| - 1]) < DistSq(from, exits[k]) then |exits| - 1 else k
  }

  /**
   The flee transition as the game writes it: both flee flags set, flee
   speed, wandering stopped, and the target is the nearest exit, or the
   away-from-viewer fallback when there is no exit. The agent's stop flag is
   left as it was, so a mortal halted by the fear reaction that scared it
   stays halted: the reaction resumes movement only for a mortal that has not
   fled.
   */
  function BecomeScaredAwayAsWritten(m: Mortal, exits: seq<Pos>): (r: Mortal)
    ensures r.scaredAway && r.hasFled && !r.wandering
    ensures r.stopped == m.stopped
    ensures r.speed == MortalTuning(m.kind).fleeSpeed
    ensures |exits| == 0 ==> r.target == AwayFromViewer
    ensures |exits| > 0 ==>
      && r.target.ToExit?
      && r.target.exit < |exits|
      && r.target.at == exits[r.target.exit]
      && (forall j :: 0 <= j < |exits| ==> DistSq(m.pos, r.target.at) <= DistSq(m.pos, exits[j]))
    ensures r == m.(scaredAway := true, hasFled := true, speed := r.speed, wandering := false, target := r.target)
  {
    var target :=
      if |exits| > 0 then
        var k := NearestExit(m.pos, exits);
        ToExit(k, exits[k])
      else AwayFromViewer;
    m.(scaredAway := true, hasFled := true, speed := MortalTuning(m.kind).fleeSpeed,
       wandering := false, target := target)
  }

  /**
   The flee transition with the agent released for the flight: as written,
   except that the mortal stays halted only while a stun or a freeze holds it.
   */
  function BecomeScaredAway(m: Mortal, exits: seq<Pos>): (r: Mortal)
    ensures r.scaredAway && r.hasFled && !r.wandering
    ensures r.stopped <==> m.stunned || m.frozen
    ensures r.speed == MortalTuning(m.kind).fleeSpeed
    ensures r.target == BecomeScaredAwayAsWritten(m, exits).target
    ensures r == m.(scaredAway := true, hasFled := true, speed := r.speed, wandering := false,
                    target := r.target, stopped := r.stopped)
  {
    BecomeScaredAwayAsWritten(m, exits).(stopped := m.stunned || m.frozen)
  }

  /** A direct scare: the flee transition regardless of fear, unless already fled or gone. */
  function TriggerFleeState(m: Mortal, exits: seq<Pos>): (r: Mortal)
    ensures m.scaredAway || !m.active ==> r == m
    ensures m.active ==> r.scaredAway
    ensures !m.scaredAway && m.active ==> r.hasFled
    ensures m.hasFled ==> r.hasFled
    ensures r.fear == m.fear && r.active == m.active
  {
    if m.scaredAway || !m.active then m else BecomeScaredAway(m, exits)
  }

  /** The other overlays a status change leaves alone. */
  predicate SameOverlays(m: Mortal, r: Mortal)
  {
    && r.stunned == m.stunned && r.stunTimer == m.stunTimer
    && r.frozen == m.frozen && r.freezeTimer == m.freezeTimer
    && r.possessed == m.possessed && r.possessionTimer == m.possessionTimer
    && r.slowTimer == m.slowTimer && r.slowMultiplier == m.slowMultiplier
  }

  /** Stun: the agent halts; a new stun replaces the running countdown. */
  function Stun(m: Mortal, duration: real): (r: Mortal)
    ensures r.stunned && r.stopped && r.stunTimer == duration
    ensures SameCore(m, r) && r.speed == m.speed && r.wandering == m.wandering
    ensures SameOverlays(m.(stunned := true, stunTimer := duration), r)
  {
    m.(stunned := true, stunTimer := duration, stopped := true)
  }

  /** Freeze: the agent halts; a new freeze replaces the running countdown. */
  function Freeze(m: Mortal, duration: real): (r: Mortal)
    ensures r.frozen && r.stopped && r.freezeTimer == duration
    ensures SameCore(m, r) && r.speed == m.speed && r.wandering == m.wandering
    ensures SameOverlays(m.(frozen := true, freezeTimer := duration), r)
  {
    m.(frozen := true, freezeTimer := duration, stopped := true)
  }

  /** Slow: the speed becomes the captured base speed times the multiplier. */
  function Slow(m: Mortal, multiplier: real, duration: real): (r: Mortal)
    ensures r.slowTimer == duration && r.slowMultiplier == multiplier
    ensures r.speed == m.baseSpeed * multiplier
    ensures SameCore(m, r) && r.stopped == m.stopped && r.wandering == m.wandering
    ensures SameOverlays(m.(slowTimer := duration, slowMultiplier := multiplier), r)
  {
    m.(slowMultiplier := multiplier, slowTimer := duration, speed := m.baseSpeed * multiplier)
  }

  /** Possession: the normal wander stops and erratic movement takes over until the timer runs out. */
  function Possess(m: Mortal, duration: real): (r: Mortal)
    ensures r.possessed && !r.wandering && r.possessionTimer == duration
    ensures SameCore(m, r) && r.stopped == m.stopped && r.speed == m.speed
    ensures SameOverlays(m.(possessed := true, possessionTimer := duration), r)
  {
    m.(possessed := true, possessionTimer := duration, wandering := false)
  }

  /** End of possession: control returns to the wander behaviour unless the mortal has fled. */
  function EndPossession(m: Mortal): (r: Mortal)
    ensures !r.possessed
    ensures r.wandering <==> m.wandering || !m.scaredAway
    ensures r == m.(possessed := false, wandering := r.wandering)
  {
    if m.scaredAway then m.(possessed := false) else m.(possessed := false, wandering := true)
  }

  /** The fields the status countdowns never touch. */
  predicate SameCore(m: Mortal, r: Mortal)
  {
    && r.kind == m.kind && r.pos == m.pos && r.baseSpeed == m.baseSpeed
    && r.waypointCount == m.waypointCount && r.waypoint == m.waypoint
    && r.fear == m.fear && r.scaredAway == m.scaredAway && r.hasFled == m.hasFled
    && r.active == m.active && r.target == m.target
  }

  function TickStun(m: Mortal, dt: real): (r: Mortal)
    ensures r == m.(stunned := r.stunned, stunTimer := r.stunTimer, stopped := r.stopped)
    ensures !m.stunned ==> r == m
    ensures m.stunned ==> r.stunTimer == m.stunTimer - dt && (r.stunned <==> r.stunTimer > 0.0)
    ensures m.stunned && !r.stunned ==> !r.stopped
    ensures r.stunned ==> r.stopped == m.stopped
  {
    if !m.stunned then m
    else if m.stunTimer - dt <= 0.0 then m.(stunTimer := m.stunTimer - dt, stunned := false, stopped := false)
    else m.(stunTimer := m.stunTimer - dt)
  }

  function TickPossession(m: Mortal, dt: real): (r: Mortal)
    ensures r == m.(possessed := r.possessed, possessionTimer := r.possessionTimer, wandering := r.wandering)
    ensures !m.possessed ==> r == m
    ensures m.possessed ==> r.possessionTimer == m.possessionTimer - dt && (r.possessed <==> r.possessionTimer > 0.0)
    ensures m.possessed && !r.possessed ==> (r.wandering <==> m.wandering || !m.scaredAway)
    ensures r.possessed ==> r.wandering == m.wandering
  {
    if !m.possessed then m
    else if m.possessionTimer - dt <= 0.0 then EndPossession(m.(possessionTimer := m.possessionTimer - dt))
    else m.(possessionTimer := m.possessionTimer - dt)
  }

  function TickFreeze(m: Mortal, dt: real): (r: Mortal)
    ensures r == m.(frozen := r.frozen, freezeTimer := r.freezeTimer, stopped := r.stopped)
    ensures !m.frozen ==> r == m
    ensures m.frozen ==> r.freezeTimer == m.freezeTimer - dt && (r.frozen <==> r.freezeTimer > 0.0)
    ensures m.frozen && !r.frozen ==> !r.stopped
    ensures r.frozen ==> r.stopped == m.stopped
  {
    if !m.frozen then m
    else if m.freezeTimer - dt <= 0.0 then m.(freezeTimer := m.freezeTimer - dt, frozen := false, stopped := false)
    else m.(freezeTimer := m.freezeTimer - dt)
  }

  function TickSlow(m: Mortal, dt: real): (r: Mortal)
    ensures r == m.(slowTimer := r.slowTimer, speed := r.speed, slowMultiplier := r.slowMultiplier)
    ensures m.slowTimer <= 0.0 ==> r == m
    ensures m.slowTimer > 0.0 ==> r.slowTimer == m.slowTimer - dt
    ensures m.slowTimer > 0.0 && r.slowTimer <= 0.0 ==> r.speed == m.baseSpeed && r.slowMultiplier == 1.0
    ensures m.slowTimer > 0.0 && r.slowTimer > 0.0 ==> r.speed == m.speed && r.slowMultiplier == m.slowMultiplier
  {
    if m.slowTimer <= 0.0 then m
    else if m.slowTimer - dt <= 0.0 then m.(slowTimer := m.slowTimer - dt, speed := m.baseSpeed, slowMultiplier := 1.0)
    else m.(slowTimer := m.slowTimer - dt)
  }

  /**
   One frame of the status countdowns, in the order stun, possession, freeze,
   slow. Each running overlay loses `dt`; an overlay whose countdown reaches
   zero or below is lifted and reverts its own side effect. Each overlay
   depends only on its own countdown.
   */
  function UpdateStatusEffects(m: Mortal, dt: real): (r: Mortal)
    // stun
    ensures !m.stunned ==> !r.stunned && r.stunTimer == m.stunTimer
    ensures m.stunned ==> r.stunTimer == m.stunTimer - dt && (r.stunned <==> r.stunTimer > 0.0)
    // possession
    ensures !m.possessed ==> !r.possessed && r.possessionTimer == m.possessionTimer && r.wandering == m.wandering
    ensures m.possessed ==> r.possessionTimer == m.possessionTimer - dt && (r.possessed <==> r.possessionTimer > 0.0)
    ensures m.possessed && !r.possessed ==> (r.wandering <==> m.wandering || !m.scaredAway)
    ensures r.possessed ==> r.wandering == m.wandering
    // freeze
    ensures !m.frozen ==> !r.frozen && r.freezeTimer == m.freezeTimer
    ensures m.frozen ==> r.freezeTimer == m.freezeTimer - dt && (r.frozen <==> r.freezeTimer > 0.0)
    // movement comes back when a stun or a freeze is lifted, and is otherwise untouched
    ensures (m.stunned && !r.stunned) || (m.frozen && !r.frozen) ==> !r.stopped
    ensures !(m.stunned && !r.stunned) && !(m.frozen && !r.frozen) ==> r.stopped == m.stopped
    // slow
    ensures m.slowTimer <= 0.0 ==> r.slowTimer == m.slowTimer && r.speed == m.speed && r.slowMultiplier == m.slowMultiplier
    ensures m.slowTimer > 0.0 ==> r.slowTimer == m.slowTimer - dt
    ensures m.slowTimer > 0.0 && r.slowTimer <= 0.0 ==> r.speed == m.baseSpeed && r.slowMultiplier == 1.0
    ensures m.slowTimer > 0.0 && r.slowTimer > 0.0 ==> r.speed == m.speed && r.slowMultiplier == m.slowMultiplier
    // nothing else changes
    ensures SameCore(m, r)
  {
    var a := TickStun(m, dt);
    var b := TickPossession(a, dt);
    var c := TickFreeze(b, dt);
    TickSlow(c, dt)
  }

  /**
   One frame of a mortal: nothing at all once it has left; otherwise the
   status countdowns, then the fear decay, then the flee check against the
   decayed fear.
   */
  function Update(m: Mortal, dt: real, exits: seq<Pos>): (r: Mortal)
    ensures !m.active ==> r == m
    ensures r.active == m.active && r.kind == m.kind && r.pos == m.pos
    ensures m.active ==> (r.fear >= MortalTuning(r.kind).scareThreshold ==> r.scaredAway)
    ensures r.scaredAway && !m.scaredAway ==> r.hasFled
    ensures m.scaredAway ==> r.scaredAway && r.target == m.target
    ensures m.hasFled ==> r.hasFled
    ensures r.scaredAway && !m.scaredAway ==> r.fear >= MortalTuning(r.kind).scareThreshold
    ensures m.active ==> r.fear == Decay(UpdateStatusEffects(m, dt), dt).fear
    ensures m.active ==> var s := UpdateStatusEffects(m, dt);
      && r.stunned == s.stunned && r.stunTimer == s.stunTimer
      && r.frozen == s.frozen && r.freezeTimer == s.freezeTimer
      && r.possessed == s.possessed && r.possessionTimer == s.possessionTimer
      && r.slowTimer == s.slowTimer && r.slowMultiplier == s.slowMultiplier
  {
    if !m.active then m
    else
      var s := UpdateStatusEffects(m, dt);
      var d := Decay(s, dt);
      if d.fear >= MortalTuning(d.kind).scareThreshold && !d.scaredAway then BecomeScaredAway(d, exits) else d
  }

  /**
   The fear reaction's pause ends: movement and the wander behaviour resume
   unless the mortal is stunned, frozen or scared away.
   */
  function FearReactionEnds(m: Mortal): (r: Mortal)
    ensures m.stunned || m.frozen || m.scaredAway ==> r == m
    ensures !m.stunned && !m.frozen && !m.scaredAway ==> !r.stopped && r.wandering
    ensures r == m.(stopped := r.stopped, wandering := r.wandering)
  {
    if !m.stunned && !m.frozen && !m.scaredAway then m.(stopped := false, wandering := true) else m
  }

  /** The waypoint wander loop may only advance while it runs: wandering, unhindered, not fled. */
  predicate WaypointWalkRuns(m: Mortal)
  {
    m.wandering && m.active && !m.scaredAway && !m.possessed && !m.stunned && !m.frozen && m.waypointCount > 0
  }

  /** A waypoint is reached: the index moves on cyclically. */
  function WaypointReached(m: Mortal): (r: Mortal)
    ensures !WaypointWalkRuns(m) ==> r == m
    ensures WaypointWalkRuns(m) && m.waypoint < m.waypointCount ==>
      r.waypoint < m.waypointCount && (r.waypoint == m.waypoint + 1 || (r.waypoint == 0 && m.waypoint + 1 == m.waypointCount))
    ensures r == m.(waypoint := r.waypoint)
  {
    if WaypointWalkRuns(m) then m.(waypoint := (m.waypoint + 1) % m.waypointCount) else m
  }

  /** The flight ends when the mortal is within two units of the exit it tracks. */
  predicate AtExit(m: Mortal)
  {
    m.active && m.target.ToExit? && DistSq(m.pos, m.target.at) <= 4.0
  }

  /**
   Leaving through the exit: the mortal is removed from play. Only a mortal
   that is fleeing to an exit gets there, so it leaves as a fled mortal.
   */
  function Depart(m: Mortal): (r: Mortal)
    ensures !r.active
    ensures Valid(m) && AtExit(m) ==> Valid(r) && r.hasFled && r.scaredAway
    ensures r == m.(active := false)
  {
    m.(active := false)
  }

  /** One hit a power or anchor delivers to a mortal. */
  datatype Action =
    | Scare(amount: real)
    | StunFor(duration: real)
    | FreezeFor(duration: real)
    | SlowBy(multiplier: real, duration: real)
    | PossessFor(duration: real)

  /**
   One hit: a scare feeds the fear meter, every other hit sets its overlay.
   No hit moves the mortal, changes its flight or brings it back; only a
   scare touches the fear, never past the type's maximum, and a non-negative
   one never lowers a meter within that maximum.
   */
  function ApplyAction(m: Mortal, a: Action): (r: Mortal)
    ensures r.kind == m.kind && r.pos == m.pos && r.active == m.active
    ensures r.scaredAway == m.scaredAway && r.hasFled == m.hasFled && r.target == m.target
    ensures !a.Scare? ==> r.fear == m.fear
    ensures m.fear <= MortalTuning(m.kind).maxFear ==> r.fear <= MortalTuning(m.kind).maxFear
    ensures a.Scare? && a.amount >= 0.0 && m.fear <= MortalTuning(m.kind).maxFear ==> r.fear >= m.fear
  {
    match a
    case Scare(amount) => TakeFear(m, amount)
    case StunFor(d) => Stun(m, d)
    case FreezeFor(d) => Freeze(m, d)
    case SlowBy(k, d) => Slow(m, k, d)
    case PossessFor(d) => Possess(m, d)
  }

  /** The hits of one power, delivered in order. */
  function ApplyActions(m: Mortal, acts: seq<Action>): (r: Mortal)
    ensures r.kind == m.kind && r.pos == m.pos && r.active == m.active
    ensures r.scaredAway == m.scaredAway && r.hasFled == m.hasFled && r.target == m.target
    ensures m.fear <= MortalTuning(m.kind).maxFear ==> r.fear <= MortalTuning(m.kind).maxFear
    ensures NonNegative(acts) && m.fear <= MortalTuning(m.kind).maxFear ==> r.fear >= m.fear
    decreases |acts|
  {
    if |acts| == 0 then m
    else
      assert NonNegative(acts) ==> NonNegative(acts[1..]) by {
        if NonNegative(acts) {
          forall i | 0 <= i < |acts[1..]| && acts[1..][i].Scare?
            ensures acts[1..][i].amount >= 0.0
          {
            assert acts[1..][i] == acts[i + 1];
          }
        }
      }
      ApplyActions(ApplyAction(m, acts[0]), acts[1..])
  }

  /** Every scare in the list carries a non-negative amount. */
  predicate NonNegative(acts: seq<Action>)
  {
    forall i :: 0 <= i < |acts| && acts[i].Scare? ==> acts[i].amount >= 0.0
  }

  // ---------------------------------------------------------------------------
  // Properties
  // ---------------------------------------------------------------------------

  /** Non-negative fear keeps the meter within bounds and never lowers it. */
  lemma TakeFearKeepsValid(m: Mortal, amount: real)
    requires Valid(m) && amount >= 0.0
    ensures Valid(TakeFear(m, amount))
    ensures TakeFear(m, amount).fear >= m.fear
  {
  }

  /** A decay step with a non-negative frame time keeps the invariant. */
  lemma DecayKeepsValid(m: Mortal, dt: real)
    requires Valid(m) && dt >= 0.0
    ensures Valid(Decay(m, dt))
  {
  }

  /** A full frame keeps the invariant; the flee flags are never reset. */
  lemma UpdateKeepsValid(m: Mortal, dt: real, exits: seq<Pos>)
    requires Valid(m) && dt >= 0.0
    ensures Valid(Update(m, dt, exits))
  {
    if m.active {
      var s := UpdateStatusEffects(m, dt);
      assert Valid(s);
      DecayKeepsValid(s, dt);
    }
  }

  /** A direct scare keeps the invariant. */
  lemma TriggerFleeStateKeepsValid(m: Mortal, exits: seq<Pos>)
    requires Valid(m)
    ensures Valid(TriggerFleeState(m, exits))
  {
  }

  lemma ApplyActionKeepsValid(m: Mortal, a: Action)
    requires Valid(m)
    requires a.Scare? ==> a.amount >= 0.0
    ensures Valid(ApplyAction(m, a))
    ensures ApplyAction(m, a).active == m.active && ApplyAction(m, a).pos == m.pos
  {
  }

  /** A list of non-negative hits keeps the invariant and never revives or moves the mortal. */
  lemma {:induction false} ApplyActionsKeepsValid(m: Mortal, acts: seq<Action>)
    requires Valid(m) && NonNegative(acts)
    ensures Valid(ApplyActions(m, acts))
    ensures ApplyActions(m, acts).active == m.active && ApplyActions(m, acts).pos == m.pos
    ensures ApplyActions(m, acts).hasFled == m.hasFled
    decreases |acts|
  {
    if |acts| > 0 {
      ApplyActionKeepsValid(m, acts[0]);
      assert NonNegative(acts[1..]) by {
        forall i | 0 <= i < |acts[1..]| && acts[1..][i].Scare?
          ensures acts[1..][i].amount >= 0.0
        {
          assert acts[1..][i] == acts[i + 1];
        }
      }
      ApplyActionsKeepsValid(ApplyAction(m, acts[0]), acts[1..]);
    }
  }

  /** A stun replaces, never stacks: the second application alone decides. */
  lemma StunDoesNotStack(m: Mortal, d1: real, d2: real)
    ensures Stun(Stun(m, d1), d2) == Stun(m, d2)
  {
  }

  /** A freeze replaces, never stacks. */
  lemma FreezeDoesNotStack(m: Mortal, d1: real, d2: real)
    ensures Freeze(Freeze(m, d1), d2) == Freeze(m, d2)
  {
  }

  /** A possession replaces, never stacks. */
  lemma PossessDoesNotStack(m: Mortal, d1: real, d2: real)
    ensures Possess(Possess(m, d1), d2) == Possess(m, d2)
  {
  }

  /** A slow replaces, never stacks: neither the multipliers nor the durations combine. */
  lemma SlowDoesNotStack(m: Mortal, k1: real, d1: real, k2: real, d2: real)
    ensures Slow(Slow(m, k1, d1), k2, d2) == Slow(m, k2, d2)
  {
  }

  /**
   A freeze of `duration` on a mortal in play is lifted by a frame at least
   that long, and the countdowns release the agent, even under a running
   stun. After the whole frame the agent is halted only if still stunned.
   */
  lemma FreezeExpires(m: Mortal, duration: real, dt: real, exits: seq<Pos>)
    requires m.active && dt >= 0.0 && duration <= dt
    ensures !UpdateStatusEffects(Freeze(m, duration), dt).frozen
    ensures !UpdateStatusEffects(Freeze(m, duration), dt).stopped
    ensures !Update(Freeze(m, duration), dt, exits).frozen
    ensures !Update(Freeze(m, duration), dt, exits).stunned ==> !Update(Freeze(m, duration), dt, exits).stopped
  {
    var f := Freeze(m, duration);
    var s := UpdateStatusEffects(f, dt);
    assert !s.frozen && !s.stopped;
    assert Update(f, dt, exits) == (var d := Decay(s, dt);
      if d.fear >= MortalTuning(d.kind).scareThreshold && !d.scaredAway then BecomeScaredAway(d, exits) else d);
  }

  /** Possession ending: control goes back to wandering only for a mortal that has not fled. */
  lemma PossessionExpiry(m: Mortal, dt: real)
    requires m.possessed && m.possessionTimer - dt <= 0.0 && !m.wandering
    ensures !UpdateStatusEffects(m, dt).possessed
    ensures UpdateStatusEffects(m, dt).wandering <==> !m.scaredAway
  {
  }

  /**
   The scenario of a child: thirty units of fear become forty-five, and any
   next frame short enough that the decay (3 per second) keeps it at forty or
   more makes it flee, walking.
   */
  lemma ChildScenario(pos: Pos, baseSpeed: real, waypoints: nat, exits: seq<Pos>, dt: real)
    requires 0.0 <= dt && 3.0 * dt <= 5.0
    ensures TakeFear(Initialize(Child, pos, baseSpeed, waypoints), 30.0).fear == 45.0
    ensures Update(TakeFear(Initialize(Child, pos, baseSpeed, waypoints), 30.0), dt, exits).scaredAway
    ensures !Update(TakeFear(Initialize(Child, pos, baseSpeed, waypoints), 30.0), dt, exits).stopped
  {
  }

  /**
   The flight as written stalls: a child scared by thirty units is halted by
   the fear reaction, flees on the next frame with the agent still halted,
   and the end of the fear reaction leaves it halted because it has fled. The
   stalled mortal breaks the level invariant that a fleeing mortal nothing
   holds is walking.
   */
  lemma FearFlightStalls(pos: Pos, baseSpeed: real, waypoints: nat, exits: seq<Pos>, dt: real)
    requires 0.0 <= dt && 3.0 * dt <= 5.0
    ensures var m := TakeFear(Initialize(Child, pos, baseSpeed, waypoints), 30.0);
            var d := Decay(UpdateStatusEffects(m, dt), dt);
            var stalled := BecomeScaredAwayAsWritten(d, exits);
            && d.fear >= MortalTuning(Child).scareThreshold && !d.scaredAway
            && stalled.scaredAway && stalled.stopped && !stalled.stunned && !stalled.frozen
            && FearReactionEnds(stalled) == stalled
            && !Valid(stalled)
  {
  }

  /**
   The order inside a frame decides the fear: the countdowns run first, so a
   possession still running after this frame holds the fear where it was,
   while a possession that ends in this frame, or no possession at all, lets
   the fear decay by rate·dt in the same frame, never below zero.
   */
  lemma FrameDecay(m: Mortal, dt: real, exits: seq<Pos>)
    requires m.active && m.fear >= 0.0 && dt >= 0.0
    ensures m.possessed && m.possessionTimer - dt > 0.0 ==> Update(m, dt, exits).fear == m.fear
    ensures !m.possessed || m.possessionTimer - dt <= 0.0 ==>
      Update(m, dt, exits).fear == MaxReal(0.0, m.fear - MortalTuning(m.kind).fearDecayRate * dt)
  {
  }

  /** Cycling through the waypoints keeps the index inside the route. */
  lemma WaypointReachedKeepsValid(m: Mortal)
    requires Valid(m)
    ensures Valid(WaypointReached(m))
  {
  }
}

=== FILE: objective.dfy ===
/** A mission objective: progress capped at the target, and a completion raised once. */
module Objectives {

  datatype ObjectiveType =
    | ScareAllMortals
    | ScareSpecificMortal
    | SurviveTime
    | CollectPlasm
    | DestroyObjects
    | PreventMortalEscape

  datatype Objective = Objective(kind: ObjectiveType, target: int, current: int, completed: bool, optional: bool)

  function MinInt(a: int, b: int): int { if a < b then a else b }

  /**
   Mark the objective completed once its value has reached the target. The
   boolean is the completion notification: raised only on the call that
   completes the objective.
   */
  function CheckCompletion(o: Objective): (r: (Objective, bool))
    ensures r.1 <==> !o.completed && o.current >= o.target
    ensures r.0 == o.(completed := o.completed || o.current >= o.target)
  {
    if !o.completed && o.current >= o.target then (o.(completed := true), true) else (o, false)
  }

  /** Set the value, capped at the target, then check completion. */
  function SetProgress(o: Objective, value: int): (r: (Objective, bool))
    ensures r.0.current <= o.target
    ensures r.0.current <= value && (r.0.current == value || r.0.current == o.target)
    ensures r.0.completed <==> o.completed || r.0.current == o.target
    ensures r.1 <==> !o.completed && r.0.completed
    ensures r.0 == o.(current := r.0.current, completed := r.0.completed)
  {
    CheckCompletion(o.(current := MinInt(value, o.target)))
  }

  /** Add to the value, capped at the target, then check completion. */
  function UpdateProgress(o: Objective, delta: int): (r: (Objective, bool))
    ensures r.0.current <= o.target
    ensures r.0.current <= o.current + delta && (r.0.current == o.current + delta || r.0.current == o.target)
    ensures r.0.completed <==> o.completed || r.0.current == o.target
    ensures r.1 <==> !o.completed && r.0.completed
    ensures r.0 == o.(current := r.0.current, completed := r.0.completed)
  {
    CheckCompletion(o.(current := MinInt(o.current + delta, o.target)))
  }

  /** The share of the target reached; zero when the target is not positive. */
  function ProgressPercentage(o: Objective): (r: real)
    ensures o.target <= 0 ==> r == 0.0
    ensures o.target > 0 ==> r * (o.target as real) == o.current as real
    ensures o.target > 0 && 0 <= o.current <= o.target ==> 0.0 <= r <= 1.0
  {
    if o.target > 0 then (o.current as real) / (o.target as real) else 0.0
  }

  /** A completed objective is never reopened and never raises its notification again. */
  lemma CompletionIsFinal(o: Objective, value: int, delta: int)
    requires o.completed
    ensures SetProgress(o, value).0.completed && !SetProgress(o, value).1
    ensures UpdateProgress(o, delta).0.completed && !UpdateProgress(o, delta).1
  {
  }

  /** Along any run of updates the notification is raised at most once. */
  lemma {:induction false} NotifiedAtMostOnce(o: Objective, deltas: seq<int>)
    ensures Notifications(o, deltas) <= 1
    ensures o.completed ==> Notifications(o, deltas) == 0
    decreases |deltas|
  {
    if |deltas| > 0 {
      var (o', fired) := UpdateProgress(o, deltas[0]);
      NotifiedAtMostOnce(o', deltas[1..]);
    }
  }

  /** The number of completion notifications raised by a run of updates. */
  function Notifications(o: Objective, deltas: seq<int>): nat
    decreases |deltas|
  {
    if |deltas| == 0 then 0
    else
      var (o', fired) := UpdateProgress(o, deltas[0]);
      (if fired then 1 else 0) + Notifications(o', deltas[1..])
  }
}

=== FILE: options.dfy ===
/** Optional references: `None` stands for the engine's null. */
module Options {

  datatype Option<+T> = None | Some(value: T)
}

=== FILE: plasm.dfy ===
/**
 The single global plasm pool owned by the game manager: every bind and every
 power is paid from it, and a mortal that leaves through an exit refills it.
 */
module Plasm {

  /** Inspector defaults of the game manager. */
  const DefaultMaxPlasm: int := 100
  const DefaultStartingPlasm: int := 50

  datatype Pool = Pool(current: int, max: int)

  /** The pool invariant: never negative, never above the cap. */
  predicate Valid(p: Pool)
  {
    0 <= p.current <= p.max
  }

  /** The pool at level start: the starting amount under the configured cap. */
  function Initial(maxPlasm: int, startingPlasm: int): (p: Pool)
    ensures p.max == maxPlasm && p.current == startingPlasm
    ensures 0 <= startingPlasm <= maxPlasm ==> Valid(p)
  {
    Pool(startingPlasm, maxPlasm)
  }

  /**
   Debit `amount` if the pool holds at least that much. The boolean says whether
   the debit happened; a refused debit leaves the pool untouched.
   */
  function SpendPlasm(p: Pool, amount: int): (r: (bool, Pool))
    ensures r.0 <==> p.current >= amount
    ensures r.0 ==> r.1.current + amount == p.current && r.1.max == p.max
    ensures !r.0 ==> r.1 == p
  {
    if p.current >= amount then (true, p.(current := p.current - amount)) else (false, p)
  }

  /** Credit `amount`, saturating at the cap. */
  function GainPlasm(p: Pool, amount: int): (r: Pool)
    ensures r.max == p.max
    ensures r.current <= p.max
    ensures r.current <= p.current + amount
    ensures r.current == p.current + amount || r.current == p.max
  {
    p.(current := if p.current + amount < p.max then p.current + amount else p.max)
  }

  /** With the default settings the level starts inside the invariant. */
  lemma DefaultStartIsValid()
    ensures Valid(Initial(DefaultMaxPlasm, DefaultStartingPlasm))
    ensures Initial(DefaultMaxPlasm, DefaultStartingPlasm).current == 50
  {
  }

  /** Spending a non-negative amount keeps the invariant. */
  lemma SpendKeepsValid(p: Pool, amount: int)
    requires Valid(p) && amount >= 0
    ensures Valid(SpendPlasm(p, amount).1)
  {
  }

  /** Gaining a non-negative amount keeps the invariant. */
  lemma GainKeepsValid(p: Pool, amount: int)
    requires Valid(p) && amount >= 0
    ensures Valid(GainPlasm(p, amount))
  {
  }

  /** Gaining back what a successful spend took restores the pool exactly. */
  lemma SpendThenGainRestores(p: Pool, amount: int)
    requires Valid(p)
    requires SpendPlasm(p, amount).0
    ensures GainPlasm(SpendPlasm(p, amount).1, amount) == p
  {
  }
}

=== FILE: world.dfy ===
/**
 The game manager's view of a level: the plasm pool, the mortals, the anchors,
 the ghosts by id, the selection and the exits. Every operation that involves
 more than one entity lives here: binding (which updates the ghost side and
 the anchor side), powers (paid from the pool, applied to mortals in range),
 anchor abilities, selection, the win check, and a mortal's frame and exit.
 */
module Game {
  import opened Options
  import opened Geometry
  import Plasm
  import Mortals
  import opened Dispatch
  import opened Ghosts
  import opened Anchors

  /** The reward for each mortal that leaves through an exit. */
  const ExitReward: int := 10

  datatype World = World(
    pool: Plasm.Pool,
    mortals: seq<Mortals.Mortal>,
    anchors: seq<Anchor>,
    ghosts: map<GhostId, Ghost>,
    selected: Option<GhostId>,
    exits: seq<Pos>)

  // ---------------------------------------------------------------------------
  // Invariants
  // ---------------------------------------------------------------------------

  /** Every reference names an entity that exists. */
  predicate RefsOk(w: World)
  {
    && (forall id :: id in w.ghosts && w.ghosts[id].anchor.Some? ==> w.ghosts[id].anchor.value < |w.anchors|)
    && (forall a :: 0 <= a < |w.anchors| && w.anchors[a].boundGhost.Some? ==> w.anchors[a].boundGhost.value in w.ghosts)
    && (w.selected.Some? ==> w.selected.value in w.ghosts)
  }

  /**
   The two sides of every bond agree: a bound ghost's anchor names it back, an
   anchor that names a ghost is occupied, and that ghost names the anchor
   back. An anchor may be marked occupied with no ghost, as a level designer
   can set it; such an anchor refuses every bind and never triggers.
   */
  predicate BindingConsistent(w: World)
  {
    && RefsOk(w)
    && (forall id :: id in w.ghosts && w.ghosts[id].anchor.Some? ==>
          w.anchors[w.ghosts[id].anchor.value].boundGhost == Some(id))
    && (forall a :: 0 <= a < |w.anchors| && w.anchors[a].boundGhost.Some? ==> w.anchors[a].occupied)
    && (forall a :: 0 <= a < |w.anchors| && w.anchors[a].boundGhost.Some? ==>
          w.ghosts[w.anchors[a].boundGhost.value].anchor == Some(a))
  }

  /** Exactly the selected ghost is marked selected. */
  predicate SelectionConsistent(w: World)
  {
    forall id :: id in w.ghosts ==> (w.ghosts[id].selected <==> w.selected == Some(id))
  }

  predicate AllMortalsValid(ms: seq<Mortals.Mortal>)
  {
    forall i :: 0 <= i < |ms| ==> Mortals.Valid(ms[i])
  }

  /** The level invariant. */
  predicate Valid(w: World)
  {
    && Plasm.Valid(w.pool)
    && AllMortalsValid(w.mortals)
    && BindingConsistent(w)
    && SelectionConsistent(w)
    && (forall id :: id in w.ghosts ==> w.ghosts[id].bindCost >= 0)
  }

  /** No two ghosts are bound to the same anchor. */
  lemma BindingIsExclusive(w: World, g1: GhostId, g2: GhostId)
    requires BindingConsistent(w)
    requires g1 in w.ghosts && g2 in w.ghosts
    requires w.ghosts[g1].anchor.Some? && w.ghosts[g1].anchor == w.ghosts[g2].anchor
    ensures g1 == g2
  {
    var a := w.ghosts[g1].anchor.value;
    assert w.anchors[a].boundGhost == Some(g1);
    assert w.anchors[a].boundGhost == Some(g2);
  }

  // ---------------------------------------------------------------------------
  // Range queries and the win check
  // ---------------------------------------------------------------------------

  /** The anchors within `range` of `center`, inclusive, as indices in list order. */
  function AnchorsInRange(w: World, center: Pos, range: real): (r: seq<nat>)
    ensures Increasing(r)
    ensures forall k :: 0 <= k < |r| ==> r[k] < |w.anchors|
    ensures forall i :: 0 <= i < |w.anchors| ==> (i in r <==> InRange(center, w.anchors[i].pos, range))
  {
    InRangeIndices(seq(|w.anchors|, i requires 0 <= i < |w.anchors| => w.anchors[i].pos), center, range)
  }

  /** Every mortal is gone or scared away (vacuously true for no mortals). */
  predicate LevelCleared(ms: seq<Mortals.Mortal>)
  {
    forall i :: 0 <= i < |ms| ==> !ms[i].active || ms[i].scaredAway
  }

  /** The win check: a scan that stops at the first mortal still in play and not scared. */
  method CheckWinCondition(ms: seq<Mortals.Mortal>) returns (allScared: bool)
    ensures allScared <==> LevelCleared(ms)
  {
    allScared := true;
    var i := 0;
    while i < |ms|
      invariant 0 <= i <= |ms|
      invariant allScared <==> forall j :: 0 <= j < i ==> !ms[j].active || ms[j].scaredAway
      invariant !allScared ==> !LevelCleared(ms)
      decreases |ms| - i, allScared
    {
      if ms[i].active && !ms[i].scaredAway {
        allScared := false;
        break;
      }
      i := i + 1;
    }
  }

  // ---------------------------------------------------------------------------
  // Selection
  // ---------------------------------------------------------------------------

  /** Select a ghost (or none): the previous one is unmarked, the new one marked. */
  function SelectGhost(w: World, g: Option<GhostId>): (r: World)
    requires g.Some? ==> g.value in w.ghosts
    requires w.selected.Some? ==> w.selected.value in w.ghosts
    ensures r.selected == g
    ensures r.ghosts.Keys == w.ghosts.Keys
    ensures g.Some? ==> r.ghosts[g.value].selected
    ensures w.selected.Some? && w.selected != g ==> !r.ghosts[w.selected.value].selected
    ensures forall id :: id in w.ghosts ==> r.ghosts[id] == w.ghosts[id].(selected := r.ghosts[id].selected)
    ensures SelectionConsistent(w) ==> SelectionConsistent(r)
    ensures r == w.(ghosts := r.ghosts, selected := g)
  {
    var cleared :=
      if w.selected.Some? then w.ghosts[w.selected.value := w.ghosts[w.selected.value].(selected := false)]
      else w.ghosts;
    var marked :=
      if g.Some? then cleared[g.value := cleared[g.value].(selected := true)]
      else cleared;
    w.(ghosts := marked, selected := g)
  }

  // ---------------------------------------------------------------------------
  // Binding
  // ---------------------------------------------------------------------------

  /**
   The bind as the game performs it: refused when the ghost is bound, the
   anchor occupied or the pool short; otherwise the pool pays, the ghost
   moves to the anchor and records it, and the anchor's own bind is attempted
   with its outcome ignored. When the anchor rejects the ghost's type the
   ghost ends up bound to an anchor that does not know it.
   */
  function TryBindToAnchor(w: World, id: GhostId, a: nat): (r: (bool, World))
    requires id in w.ghosts && a < |w.anchors|
    ensures r.0 <==> w.ghosts[id].anchor.None? && !w.anchors[a].occupied && w.pool.current >= w.ghosts[id].bindCost
    ensures !r.0 ==> r.1 == w
    ensures |r.1.anchors| == |w.anchors|
    ensures r.0 ==>
      && r.1.pool.current == w.pool.current - w.ghosts[id].bindCost
      && r.1.pool.max == w.pool.max
      && r.1.ghosts == w.ghosts[id := w.ghosts[id].(pos := w.anchors[a].pos, anchor := Some(a))]
      && r.1.anchors[a].boundGhost == (if TypeAccepted(w.anchors[a], w.ghosts[id].kind) then Some(id) else w.anchors[a].boundGhost)
      && r.1.anchors[a].occupied == TypeAccepted(w.anchors[a], w.ghosts[id].kind)
    ensures forall b :: 0 <= b < |w.anchors| && b != a ==> r.1.anchors[b] == w.anchors[b]
    ensures r.1.mortals == w.mortals && r.1.selected == w.selected && r.1.exits == w.exits
  {
    var g := w.ghosts[id];
    var anchor := w.anchors[a];
    if g.anchor.Some? || anchor.occupied then (false, w)
    else
      var (paid, pool) := Plasm.SpendPlasm(w.pool, g.bindCost);
      if !paid then (false, w)
      else
        var (_, bound) := BindGhost(anchor, id, g.kind);
        (true, w.(pool := pool,
                  ghosts := w.ghosts[id := g.(pos := anchor.pos, anchor := Some(a))],
                  anchors := w.anchors[a := bound]))
  }

  /**
   The bind with the anchor's compatibility checked before anything is paid:
   it succeeds exactly when the ghost is free, the anchor accepts it and the
   pool covers the cost, and then both sides record the bond.
   */
  function TryBindToAnchorChecked(w: World, id: GhostId, a: nat): (r: (bool, World))
    requires id in w.ghosts && a < |w.anchors|
    ensures r.0 <==> w.ghosts[id].anchor.None? && CanBindGhost(w.anchors[a], w.ghosts[id].kind) && w.pool.current >= w.ghosts[id].bindCost
    ensures !r.0 ==> r.1 == w
    ensures r.0 ==>
      && r.1.pool.current == w.pool.current - w.ghosts[id].bindCost
      && r.1.pool.max == w.pool.max
      && r.1.ghosts == w.ghosts[id := w.ghosts[id].(pos := w.anchors[a].pos, anchor := Some(a))]
      && r.1.anchors == w.anchors[a := w.anchors[a].(occupied := true, boundGhost := Some(id))]
    ensures r.1.mortals == w.mortals && r.1.selected == w.selected && r.1.exits == w.exits
  {
    var g := w.ghosts[id];
    if g.anchor.Some? || !CanBindGhost(w.anchors[a], g.kind) then (false, w)
    else TryBindToAnchor(w, id, a)
  }

  /** Release the ghost's anchor, if it has one: both sides are cleared. */
  function Unbind(w: World, id: GhostId): (r: World)
    requires id in w.ghosts
    requires w.ghosts[id].anchor.Some? ==> w.ghosts[id].anchor.value < |w.anchors|
    ensures w.ghosts[id].anchor.None? ==> r == w
    ensures w.ghosts[id].anchor.Some? ==>
      && r.ghosts == w.ghosts[id := w.ghosts[id].(anchor := None)]
      && r.anchors == w.anchors[w.ghosts[id].anchor.value := UnbindGhost(w.anchors[w.ghosts[id].anchor.value])]
      && !r.anchors[w.ghosts[id].anchor.value].occupied
      && r.anchors[w.ghosts[id].anchor.value].boundGhost == None
    ensures r.pool == w.pool && r.mortals == w.mortals && r.selected == w.selected && r.exits == w.exits
  {
    var g := w.ghosts[id];
    match g.anchor
    case None => w
    case Some(a) =>
      w.(anchors := w.anchors[a := UnbindGhost(w.anchors[a])], ghosts := w.ghosts[id := g.(anchor := None)])
  }

  // ---------------------------------------------------------------------------
  // Powers and anchor abilities
  // ---------------------------------------------------------------------------

  /**
   Fire a ghost's primary or secondary power at time `now`. It fires exactly
   when the ghost is bound, the shared cooldown is over and the pool covers
   the power's cost; then the pool pays that cost, the shared timestamp
   becomes `now`, and the power's effect reaches the mortals around the ghost.
   A refused power changes nothing.
   */
  function ActivatePower(w: World, id: GhostId, now: real, p: Power): (r: (bool, World))
    requires id in w.ghosts
    ensures r.0 <==>
      && w.ghosts[id].anchor.Some?
      && now - w.ghosts[id].lastPowerUse >= w.ghosts[id].powerCooldown
      && w.pool.current >= PowerCost(w.ghosts[id].kind, p)
    ensures !r.0 ==> r.1 == w
    ensures r.0 ==>
      && r.1.pool.current == w.pool.current - PowerCost(w.ghosts[id].kind, p)
      && r.1.pool.max == w.pool.max
      && r.1.ghosts == w.ghosts[id := w.ghosts[id].(lastPowerUse := now)]
      && r.1.mortals == ApplyEffect(w.mortals, w.ghosts[id].pos, GhostEffect(w.ghosts[id], p))
      && r.1.anchors == w.anchors && r.1.selected == w.selected && r.1.exits == w.exits
  {
    var g := w.ghosts[id];
    var cost := PowerCost(g.kind, p);
    if !CanUsePower(g, now, w.pool.current, cost) then (false, w)
    else
      var (_, pool) := Plasm.SpendPlasm(w.pool, cost);
      (true, w.(pool := pool,
                ghosts := w.ghosts[id := g.(lastPowerUse := now)],
                mortals := ApplyEffect(w.mortals, g.pos, GhostEffect(g, p))))
  }

  /** An anchor's own ability: only an occupied anchor acts, and a generic one does nothing. */
  function TriggerAnchor(w: World, a: nat): (r: World)
    requires a < |w.anchors|
    ensures !CanTrigger(w.anchors[a]) || w.anchors[a].kind == Generic ==> r == w
    ensures r == w.(mortals := r.mortals)
    ensures |r.mortals| == |w.mortals|
    ensures CanTrigger(w.anchors[a]) && w.anchors[a].kind != Generic ==>
      r.mortals == ApplyEffect(w.mortals, w.anchors[a].pos, AnchorEffect(w.anchors[a].kind).value)
  {
    w.(mortals := TriggerAnchorAbility(w.anchors[a], w.mortals))
  }

  // ---------------------------------------------------------------------------
  // Mortal events at level scope
  // ---------------------------------------------------------------------------

  /**
   One frame of mortal `i`. The boolean is the level-complete notification,
   raised when this mortal has just been scared away and every mortal is now
   gone or scared away.
   */
  function MortalFrame(w: World, i: nat, dt: real): (r: (World, bool))
    requires i < |w.mortals|
    ensures r.0 == w.(mortals := w.mortals[i := Mortals.Update(w.mortals[i], dt, w.exits)])
    ensures r.1 ==> LevelCleared(r.0.mortals) && !w.mortals[i].scaredAway
    ensures !w.mortals[i].scaredAway && r.0.mortals[i].scaredAway && LevelCleared(r.0.mortals) ==> r.1
  {
    var m := Mortals.Update(w.mortals[i], dt, w.exits);
    var w' := w.(mortals := w.mortals[i := m]);
    (w', !w.mortals[i].scaredAway && m.scaredAway && LevelCleared(w'.mortals))
  }

  /** A direct scare of mortal `i`, with the same level-complete notification. */
  function ForceFlee(w: World, i: nat): (r: (World, bool))
    requires i < |w.mortals|
    ensures r.0 == w.(mortals := w.mortals[i := Mortals.TriggerFleeState(w.mortals[i], w.exits)])
    ensures r.1 ==> LevelCleared(r.0.mortals)
    ensures w.mortals[i].active && !w.mortals[i].scaredAway && LevelCleared(r.0.mortals) ==> r.1
  {
    var m := Mortals.TriggerFleeState(w.mortals[i], w.exits);
    var w' := w.(mortals := w.mortals[i := m]);
    (w', !w.mortals[i].scaredAway && m.scaredAway && LevelCleared(w'.mortals))
  }

  /**
   Mortal `i` reaches the exit it flees to: it leaves play and the pool gains
   the exit reward. Before that moment the event changes nothing.
   */
  function ExitReached(w: World, i: nat): (r: World)
    requires i < |w.mortals|
    ensures !Mortals.AtExit(w.mortals[i]) ==> r == w
    ensures Mortals.AtExit(w.mortals[i]) ==>
      && r.mortals == w.mortals[i := w.mortals[i].(active := false)]
      && r.pool == Plasm.GainPlasm(w.pool, ExitReward)
      && r.ghosts == w.ghosts && r.anchors == w.anchors
  {
    if Mortals.AtExit(w.mortals[i]) then
      w.(mortals := w.mortals[i := Mortals.Depart(w.mortals[i])], pool := Plasm.GainPlasm(w.pool, ExitReward))
    else w
  }

  /**
   The navigation agent carries mortal `i` to `to`. Only a mortal in play
   whose agent is not halted moves; a halted or departed one stays put, and
   nothing but the position changes.
   */
  function MoveMortal(w: World, i: nat, to: Pos): (r: World)
    requires i < |w.mortals|
    ensures |r.mortals| == |w.mortals|
    ensures r.mortals[i].pos == (if w.mortals[i].active && !w.mortals[i].stopped then to else w.mortals[i].pos)
    ensures r.mortals[i] == w.mortals[i].(pos := r.mortals[i].pos)
    ensures r == w.(mortals := w.mortals[i := r.mortals[i]])
  {
    var m := w.mortals[i];
    if m.active && !m.stopped then w.(mortals := w.mortals[i := m.(pos := to)]) else w
  }

  // ---------------------------------------------------------------------------
  // Every event of a level
  // ---------------------------------------------------------------------------

  datatype Event =
    | Frame(mortal: nat, dt: real)
    | Flee(mortal: nat)
    | ReactionOver(mortal: nat)
    | WaypointArrived(mortal: nat)
    | ExitArrived(mortal: nat)
    | Moved(mortal: nat, to: Pos)
    | Fire(id: GhostId, now: real, power: Power)
    | Bind(id: GhostId, anchor: nat)
    | Release(id: GhostId)
    | AnchorAbility(anchor: nat)
    | Select(choice: Option<GhostId>)

  /** An event names existing entities, and frames do not run backwards. */
  predicate EventOk(w: World, e: Event)
  {
    match e
    case Frame(i, dt) => i < |w.mortals| && dt >= 0.0
    case Flee(i) => i < |w.mortals|
    case ReactionOver(i) => i < |w.mortals|
    case WaypointArrived(i) => i < |w.mortals|
    case ExitArrived(i) => i < |w.mortals|
    case Moved(i, _) => i < |w.mortals|
    case Fire(id, _, _) => id in w.ghosts
    case Bind(id, a) => id in w.ghosts && a < |w.anchors|
    case Release(id) => id in w.ghosts
    case AnchorAbility(a) => a < |w.anchors|
    case Select(g) => g.Some? ==> g.value in w.ghosts
  }

  /** The level after one event, binding with the compatibility check in place. */
  function Step(w: World, e: Event): (r: World)
    requires Valid(w) && EventOk(w, e)
    ensures |r.mortals| == |w.mortals| && |r.anchors| == |w.anchors| && r.exits == w.exits
    ensures r.ghosts.Keys == w.ghosts.Keys
  {
    match e
    case Frame(i, dt) => MortalFrame(w, i, dt).0
    case Flee(i) => ForceFlee(w, i).0
    case ReactionOver(i) => w.(mortals := w.mortals[i := Mortals.FearReactionEnds(w.mortals[i])])
    case WaypointArrived(i) => w.(mortals := w.mortals[i := Mortals.WaypointReached(w.mortals[i])])
    case ExitArrived(i) => ExitReached(w, i)
    case Moved(i, to) => MoveMortal(w, i, to)
    case Fire(id, now, p) => ActivatePower(w, id, now, p).1
    case Bind(id, a) => TryBindToAnchorChecked(w, id, a).1
    case Release(id) => Unbind(w, id)
    case AnchorAbility(a) => TriggerAnchor(w, a)
    case Select(g) => SelectGhost(w, g)
  }
}

=== FILE: world_props.dfy ===
/**
 Properties of the level as a whole: which operations keep the level
 invariant, the two-sided bond, the shared cooldown, and the one-sided bond
 the unchecked bind can leave behind.
 */
module GameProperties {
  import opened Options
  import opened Geometry
  import Plasm
  import Mortals
  import opened Dispatch
  import opened Ghosts
  import opened Anchors
  import opened Game

  // ---------------------------------------------------------------------------
  // Binding
  // ---------------------------------------------------------------------------

  /**
   The unchecked bind on a free anchor that does not accept the ghost's type
   still reports success and takes the bind cost, yet leaves the ghost bound
   to an anchor that is neither occupied nor names it: the two sides disagree.
   */
  lemma OneSidedBind(w: World, id: GhostId, a: nat)
    requires Valid(w) && id in w.ghosts && a < |w.anchors|
    requires w.ghosts[id].anchor.None? && !w.anchors[a].occupied
    requires w.pool.current >= w.ghosts[id].bindCost
    requires !TypeAccepted(w.anchors[a], w.ghosts[id].kind)
    ensures TryBindToAnchor(w, id, a).0
    ensures TryBindToAnchor(w, id, a).1.pool.current == w.pool.current - w.ghosts[id].bindCost
    ensures TryBindToAnchor(w, id, a).1.ghosts[id].anchor == Some(a)
    ensures !TryBindToAnchor(w, id, a).1.anchors[a].occupied
    ensures !BindingConsistent(TryBindToAnchor(w, id, a).1)
  {
    var r := TryBindToAnchor(w, id, a).1;
    assert w.anchors[a].boundGhost == None;
    assert r.anchors[a].boundGhost == None;
    assert r.ghosts[id].anchor == Some(a);
  }

  /** A concrete level: a Banshee next to a Furniture anchor that enforces its list. */
  function BansheeAndFurniture(): (w: World)
    ensures Valid(w)
  {
    World(Plasm.Pool(50, 100), [], [Anchor(Furniture, Pos(0.0, 0.0, 0.0), true, false, None)],
          map[0 := Ghosts.Initialize(Banshee, Pos(1.0, 0.0, 0.0), 10, 2.0)], None, [])
  }

  /**
   In that level the unchecked bind succeeds, takes ten plasm, and leaves a
   one-sided bond; the checked bind refuses and changes nothing.
   */
  lemma OneSidedBindExample()
    ensures TryBindToAnchor(BansheeAndFurniture(), 0, 0).0
    ensures TryBindToAnchor(BansheeAndFurniture(), 0, 0).1.pool.current == 40
    ensures !BindingConsistent(TryBindToAnchor(BansheeAndFurniture(), 0, 0).1)
    ensures !TryBindToAnchorChecked(BansheeAndFurniture(), 0, 0).0
    ensures TryBindToAnchorChecked(BansheeAndFurniture(), 0, 0).1 == BansheeAndFurniture()
  {
    var w := BansheeAndFurniture();
    assert !TypeAccepted(w.anchors[0], Banshee);
    OneSidedBind(w, 0, 0);
  }

  /** The checked bind keeps the level invariant, the two-sided bond included. */
  lemma CheckedBindKeepsValid(w: World, id: GhostId, a: nat)
    requires Valid(w) && id in w.ghosts && a < |w.anchors|
    ensures Valid(TryBindToAnchorChecked(w, id, a).1)
  {
    var r := TryBindToAnchorChecked(w, id, a);
    if r.0 {
      var w' := r.1;
      assert w.anchors[a].boundGhost == None;
      forall g | g in w.ghosts && g != id && w.ghosts[g].anchor.Some?
        ensures w.ghosts[g].anchor.value != a
      {
        assert w.anchors[w.ghosts[g].anchor.value].boundGhost == Some(g);
      }
      assert BindingConsistent(w');
      assert SelectionConsistent(w');
    }
  }

  /** Unbinding keeps the level invariant. */
  lemma UnbindKeepsValid(w: World, id: GhostId)
    requires Valid(w) && id in w.ghosts
    ensures Valid(Unbind(w, id))
  {
    if w.ghosts[id].anchor.Some? {
      var a := w.ghosts[id].anchor.value;
      var w' := Unbind(w, id);
      forall g | g in w.ghosts && g != id && w.ghosts[g].anchor.Some?
        ensures w.ghosts[g].anchor.value != a
      {
        if w.ghosts[g].anchor.value == a {
          BindingIsExclusive(w, g, id);
        }
      }
      assert BindingConsistent(w');
    }
  }

  /**
   A checked bind followed by an unbind leaves no trace in the bond: the
   anchors are exactly as before and the ghost is free again. What remains is
   the plasm paid and the ghost's move to the anchor.
   */
  lemma BindUnbindRoundTrip(w: World, id: GhostId, a: nat)
    requires Valid(w) && id in w.ghosts && a < |w.anchors|
    requires TryBindToAnchorChecked(w, id, a).0
    ensures Unbind(TryBindToAnchorChecked(w, id, a).1, id) ==
      w.(pool := w.pool.(current := w.pool.current - w.ghosts[id].bindCost),
         ghosts := w.ghosts[id := w.ghosts[id].(pos := w.anchors[a].pos)])
  {
    var b := TryBindToAnchorChecked(w, id, a).1;
    var u := Unbind(b, id);
    assert w.anchors[a].boundGhost == None;
    assert u.anchors == w.anchors;
    assert u.ghosts == w.ghosts[id := w.ghosts[id].(pos := w.anchors[a].pos)];
  }

  /** The scenario of a fifty-plasm pool and a ten-plasm bind on a free, accepting anchor. */
  lemma BindScenario(w: World, id: GhostId, a: nat)
    requires Valid(w) && id in w.ghosts && a < |w.anchors|
    requires w.pool.current == 50 && w.ghosts[id].bindCost == 10 && w.ghosts[id].anchor.None?
    requires CanBindGhost(w.anchors[a], w.ghosts[id].kind)
    ensures TryBindToAnchorChecked(w, id, a).0
    ensures TryBindToAnchorChecked(w, id, a).1.pool.current == 40
    ensures TryBindToAnchorChecked(w, id, a).1.anchors[a].occupied
    ensures TryBindToAnchorChecked(w, id, a).1.ghosts[id].anchor == Some(a)
  {
  }

  // ---------------------------------------------------------------------------
  // Powers
  // ---------------------------------------------------------------------------

  /**
   The cooldown is shared: once either power has fired at `t`, neither power
   fires again before the cooldown has passed.
   */
  lemma SharedCooldown(w: World, id: GhostId, t: real, p: Power, later: real, q: Power)
    requires id in w.ghosts
    requires ActivatePower(w, id, t, p).0
    requires later - t < w.ghosts[id].powerCooldown
    ensures !ActivatePower(ActivatePower(w, id, t, p).1, id, later, q).0
    ensures ActivatePower(ActivatePower(w, id, t, p).1, id, later, q).1 == ActivatePower(w, id, t, p).1
  {
  }

  /** Firing a power keeps the level invariant. */
  lemma ActivateKeepsValid(w: World, id: GhostId, now: real, p: Power)
    requires Valid(w) && id in w.ghosts
    ensures Valid(ActivatePower(w, id, now, p).1)
  {
    var r := ActivatePower(w, id, now, p);
    if r.0 {
      var g := w.ghosts[id];
      ApplyEffectKeepsValid(w.mortals, g.pos, GhostEffect(g, p));
      assert BindingConsistent(r.1);
      assert SelectionConsistent(r.1);
    }
  }

  /** An anchor ability keeps the level invariant. */
  lemma TriggerAnchorKeepsValid(w: World, a: nat)
    requires Valid(w) && a < |w.anchors|
    ensures Valid(TriggerAnchor(w, a))
  {
    var anchor := w.anchors[a];
    if CanTrigger(anchor) && anchor.kind != Generic {
      ApplyEffectKeepsValid(w.mortals, anchor.pos, AnchorEffect(anchor.kind).value);
    }
  }

  // ---------------------------------------------------------------------------
  // Mortal events, selection, and every event
  // ---------------------------------------------------------------------------

  lemma ReplaceMortalKeepsValid(w: World, i: nat, m: Mortals.Mortal)
    requires Valid(w) && i < |w.mortals| && Mortals.Valid(m)
    ensures Valid(w.(mortals := w.mortals[i := m]))
  {
  }

  /** A mortal's frame keeps the level invariant. */
  lemma MortalFrameKeepsValid(w: World, i: nat, dt: real)
    requires Valid(w) && i < |w.mortals| && dt >= 0.0
    ensures Valid(MortalFrame(w, i, dt).0)
  {
    Mortals.UpdateKeepsValid(w.mortals[i], dt, w.exits);
    ReplaceMortalKeepsValid(w, i, Mortals.Update(w.mortals[i], dt, w.exits));
  }

  /**
   A mortal reaching its exit keeps the level invariant; the pool gains the
   reward, saturating at the cap.
   */
  lemma ExitReachedKeepsValid(w: World, i: nat)
    requires Valid(w) && i < |w.mortals|
    ensures Valid(ExitReached(w, i))
    ensures Mortals.AtExit(w.mortals[i]) && w.pool.current + ExitReward <= w.pool.max ==>
      ExitReached(w, i).pool.current == w.pool.current + ExitReward
  {
    Plasm.GainKeepsValid(w.pool, ExitReward);
  }

  /** Every event keeps the level invariant. */
  lemma StepKeepsValid(w: World, e: Event)
    requires Valid(w) && EventOk(w, e)
    ensures Valid(Step(w, e))
  {
    match e
    case Frame(i, dt) => MortalFrameKeepsValid(w, i, dt);
    case Flee(i) =>
      Mortals.TriggerFleeStateKeepsValid(w.mortals[i], w.exits);
      ReplaceMortalKeepsValid(w, i, Mortals.TriggerFleeState(w.mortals[i], w.exits));
    case ReactionOver(i) =>
      ReplaceMortalKeepsValid(w, i, Mortals.FearReactionEnds(w.mortals[i]));
    case WaypointArrived(i) =>
      Mortals.WaypointReachedKeepsValid(w.mortals[i]);
      ReplaceMortalKeepsValid(w, i, Mortals.WaypointReached(w.mortals[i]));
    case ExitArrived(i) => ExitReachedKeepsValid(w, i);
    case Moved(i, to) => ReplaceMortalKeepsValid(w, i, MoveMortal(w, i, to).mortals[i]);
    case Fire(id, now, p) => ActivateKeepsValid(w, id, now, p);
    case Bind(id, a) => CheckedBindKeepsValid(w, id, a);
    case Release(id) => UnbindKeepsValid(w, id);
    case AnchorAbility(a) => TriggerAnchorKeepsValid(w, a);
    case Select(g) =>
  }

  /**
   A fleeing mortal that tracks an exit and is neither stunned nor frozen is
   walking, so its agent can carry it to the exit, where it leaves play as a
   fled mortal and the pool gains the exit reward, capped at the maximum.
   */
  lemma FlightReachesExit(w: World, i: nat)
    requires Valid(w) && i < |w.mortals|
    requires w.mortals[i].active && w.mortals[i].scaredAway && w.mortals[i].target.ToExit?
    requires !w.mortals[i].stunned && !w.mortals[i].frozen
    ensures var w1 := Step(w, Moved(i, w.mortals[i].target.at));
            && Valid(w1) && EventOk(w1, ExitArrived(i))
            && var w2 := Step(w1, ExitArrived(i));
            && Valid(w2)
            && !w2.mortals[i].active && w2.mortals[i].hasFled
            && w2.pool == Plasm.GainPlasm(w.pool, ExitReward)
  {
    var w1 := Step(w, Moved(i, w.mortals[i].target.at));
    StepKeepsValid(w, Moved(i, w.mortals[i].target.at));
    assert Mortals.AtExit(w1.mortals[i]);
    StepKeepsValid(w1, ExitArrived(i));
  }

  /**
   An anchor marked occupied with no ghost on it is a valid part of a level,
   and it is inert: both binds refuse it without charge and its ability does
   nothing.
   */
  lemma MarkedOccupiedIsInert(w: World, id: GhostId, a: nat)
    requires Valid(w) && id in w.ghosts && a < |w.anchors|
    requires w.anchors[a].occupied && w.anchors[a].boundGhost.None?
    ensures TryBindToAnchor(w, id, a) == (false, w)
    ensures TryBindToAnchorChecked(w, id, a) == (false, w)
    ensures TriggerAnchor(w, a) == w
  {
  }

  /** Once a mortal has fled it stays fled, and once gone it stays gone, whatever happens. */
  lemma FledAndGoneAreForever(w: World, e: Event, i: nat)
    requires Valid(w) && EventOk(w, e) && i < |w.mortals|
    ensures |Step(w, e).mortals| == |w.mortals|
    ensures w.mortals[i].hasFled ==> Step(w, e).mortals[i].hasFled
    ensures !w.mortals[i].active ==> !Step(w, e).mortals[i].active
  {
    match e
    case Fire(id, now, p) =>
      var g := w.ghosts[id];
      ApplyEffectKeepsValid(w.mortals, g.pos, GhostEffect(g, p));
    case AnchorAbility(a) =>
      var anchor := w.anchors[a];
      if CanTrigger(anchor) && anchor.kind != Generic {
        ApplyEffectKeepsValid(w.mortals, anchor.pos, AnchorEffect(anchor.kind).value);
      }
    case _ =>
  }
}
